=== FILE: README.md ===
# DalgonaBurger client core in Dafny

This project models the client-side core of the DalgonaBurger game. The core has four parts.

- **The Unity DB client** (`DB_WebSocketClient`):
  - a main-thread dispatcher (`RunOnMain` / `Update`);
  - `SendRunLog`, a fail-fast validation chain that builds the run-log payload for the WebSocket;
  - classification of inbound frames and the status each kind produces;
  - the progress fetch, with its `":null"` → `":0"` rewrite and the list of unlocked stages;
  - the register and refresh buttons.
- **The Unity AI client** (`AI_WebSocketClient`): the checks `SendPrompt` runs before it submits a prompt, and how a reply becomes a log line.
- **The live leaderboard page** (`ChartLive.jsx`):
  - a buffer of chart-feed frames, where a snapshot replaces the buffer and any other frame is appended to a 500-entry window;
  - the chart data: the selected stage's records, reduced to the best record per player and stably sorted by tokens, then clear time.
- **The server side** the clients talk to:
  - the two `RunLog` request models, which disagree on the type of `stage`;
  - the AI server's fixed action generator.

Everything is pure functions over immutable data, with one exception: `MainQueue.Update` is a method with a loop.
- JSON decoding is a parameter of type `string -> Decoded<T>`. The result is one of three outcomes: the decoder threw, it returned null, or it returned a value.
- A UI field is an optional text. `None` stands for a widget that is not assigned.
- What a handler does is returned as a value: a status text, a payload, or a list of effects.

Modules:
- **Library behaviour the core relies on:**
  - `Wrappers`: `Option`, `Decoded`.
  - `Text`: .NET `Trim`, ordinal `Contains` and `Replace`, and `string.Join`.
  - `Int32Text`: `int.TryParse` with `NumberStyles.Integer`, and `Int32.ToString`.
  - `Transport`: the socket's ready state.
- **The clients and the page:** `MainQueue`, `DbClient`, `AiClient`, `ChartLive`.
- **The server side:** `Json`, `DbAppSchema`, `AppSchema`, `SchemaConflict`, `Generator`.

### Behaviour worth knowing

- **The per-player best is recomputed from the buffer on every render; it is not a persistent map.** The buffer keeps only the last 500 entries. Once 500 newer records of any players have arrived, a player's best record has left the buffer. If each of those newer records by that player is worse, any bar the player still has shows a strictly worse result (`ChartLive.EvictedBestIsLost`). The chart then no longer depends on anything older than those 500 records (`ChartLive.WindowForgets`).
- **The 500-entry bound does not apply to snapshots.** A snapshot replaces the buffer with all of its rows, however many there are.
- **The two `RunLog` models overlap.** The servers validate with pydantic v2 in lax mode, where an integer field also takes a string that reads as an integer. A stage sent as a string such as "12" is therefore accepted by both models, while a stage code such as "A1" is accepted only by the DB app, and a stage sent as a JSON number only by the app model (server/app) (`SchemaConflict`).

## Model

| member | source | states |
|---|---|---|
| MainQueue.RunOnMain | UnityScripts/DB_WebSocketClient.cs:73 | A null action leaves the queue unchanged. Any other action is added at the tail and the earlier contents are kept in place. |
| MainQueue.RunAllOnMainQueue | UnityScripts/DB_WebSocketClient.cs:71-73 | FIFO: after any sequence of `RunOnMain` calls, the queue is the old contents followed by the non-null actions, in call order. |
| MainQueue.Update | UnityScripts/DB_WebSocketClient.cs:74-83 | One drain empties the queue. It runs exactly the queued actions, in enqueue order. It logs one `[MainQ]` line per action that throws, in order, and the throwing action does not stop the drain. |
| MainQueue.ErrorLogLength | UnityScripts/DB_WebSocketClient.cs:81 | The drain writes as many log lines as actions threw, and no others. |
| Text.Trim | UnityScripts/DB_WebSocketClient.cs:220 | `Trim` returns a contiguous piece of the input whose ends are not white space. The result is empty exactly when the input is all white space. |
| Text.TrimPadded | UnityScripts/DB_WebSocketClient.cs:282 | Trimming a text that has white space around it gives the text back. |
| Text.ReplaceAbsent | UnityScripts/DB_WebSocketClient.cs:254 | `Replace` changes nothing when the pattern does not occur. |
| Text.ContainsInConcat | UnityScripts/DB_WebSocketClient.cs:147 | Ordinal `Contains` finds a pattern wherever it is placed, whatever text surrounds it. |
| Text.Join | UnityScripts/DB_WebSocketClient.cs:266 | A list of one item joins to that item, and the empty list to the empty text. |
| Text.JoinAppend | UnityScripts/DB_WebSocketClient.cs:266 | Joining two non-empty lists gives the first list's join, the separator, then the second list's join, so items keep their order. |
| Text.JoinContains | UnityScripts/DB_WebSocketClient.cs:266 | Every item can be found in the joined text. |
| Int32Text.TryParse | UnityScripts/DB_WebSocketClient.cs:285 | `int.TryParse` only yields values in the 32-bit range, and fails on empty or all-white input. |
| Int32Text.TryParseTrailingNuls | UnityScripts/DB_WebSocketClient.cs:285 | '\0' characters at the very end of a text do not change what it parses to, so "5\0" parses as 5. |
| Int32Text.NulThenWhiteRefused | UnityScripts/DB_WebSocketClient.cs:285 | A '\0' followed by white space is not ignored: "5\0 " fails, while "5 \0" parses as 5. |
| Int32Text.TryParseSound | UnityScripts/DB_WebSocketClient.cs:285 | What `int.TryParse` accepts is number white space, then an optionally signed run of digits, then number white space, then '\0' characters; the result is the value of that signed run. |
| Int32Text.TryParseRefuses | UnityScripts/DB_WebSocketClient.cs:285 | A text holding any character other than number white space, a sign, a digit or '\0' fails to parse. |
| Int32Text.Format | UnityScripts/AI_WebSocketClient.cs:122 | `int.ToString()`: a non-empty text of digits after the first character, which is '-' exactly for a negative number. A non-negative number gives digits only. Partners: `Int32Text.SignedFormat` and `Int32Text.ParseFormatted`. |
| Int32Text.SignedFormat | UnityScripts/AI_WebSocketClient.cs:122 | The sign and digits of any printed integer, of any size, read back as that integer. |
| Int32Text.ParseFormatted | UnityScripts/DB_WebSocketClient.cs:285-289 | Any 32-bit integer printed in decimal, with number white space around it, parses back to itself. |
| DbClient.SendRunLog | UnityScripts/DB_WebSocketClient.cs:278-300 | Five checks run in order: socket open, non-empty trimmed id, token count, clear time, non-empty trimmed stage. Each refusal happens exactly when every earlier check passed and this one fails. A count fails when it does not parse as a 32-bit integer or is negative. When all checks pass, the payload holds the trimmed id and stage and the parsed counts. |
| DbClient.ParsedCount | UnityScripts/DB_WebSocketClient.cs:285-289 | A count field yields a 32-bit integer of at least zero, or fails. An unassigned field reads as "0" and yields zero. |
| DbClient.NegativeCountRefused | UnityScripts/DB_WebSocketClient.cs:285-289 | A negative 32-bit count, printed in decimal, is refused. |
| DbClient.MalformedCountRefused | UnityScripts/DB_WebSocketClient.cs:285-289 | A count field holding any character other than number white space, a sign, a digit or '\0' is refused. |
| DbClient.CountTrailingNuls | UnityScripts/DB_WebSocketClient.cs:285-289 | A non-negative count followed by '\0' characters is read as that count. |
| DbClient.SendRunLogRoundTrip | UnityScripts/DB_WebSocketClient.cs:278-300 | Entering a run log's id and stage with any surrounding white space, and its counts in decimal, sends exactly that run log. |
| DbClient.MissingCountFieldsSendZero | UnityScripts/DB_WebSocketClient.cs:285-289 | Unassigned token and clear-time fields read as "0", so the run log is sent with zero counts. |
| DbClient.RefusalStatusesDistinct | UnityScripts/DB_WebSocketClient.cs:280-292 | Each refusal shows its own status line. |
| DbClient.Classify | UnityScripts/DB_WebSocketClient.cs:147-174 | A frame is a game result exactly when it contains either percentile key. It is an ACK frame exactly when it contains neither key but does contain `"ack"`. Anything else is a plain message. |
| DbClient.OnMessage | UnityScripts/DB_WebSocketClient.cs:140-178 | A game result is shown only when it decodes to a non-null object with ack set; nothing else is shown for such frames. On an ACK frame, an acknowledgement shows the received text. Any other ACK frame shows a rejection, naming the error or "unknown" when the response or its error is null. A decoder exception leaves the display unchanged. Other frames are echoed as `WS msg:` followed by the frame. |
| DbClient.PercentileFrameIsGameResult | UnityScripts/DB_WebSocketClient.cs:147-162 | A frame that contains `rank_clear_time_percent` or `rank_tokens_percent` is treated as a game result even when it also carries "ack", so it never produces the ACK or rejection text. |
| DbClient.RejectionShowsReason | UnityScripts/DB_WebSocketClient.cs:164-166 | A shown rejection contains the server's error, or "unknown" when the error is null. |
| DbClient.SanitizeRemovesNulls | UnityScripts/DB_WebSocketClient.cs:254 | After the rewrite, no `:null` is left in the text the decoder sees. |
| DbClient.SanitizeNulls | UnityScripts/DB_WebSocketClient.cs:254 | The rewrite is the ordinal replacement of `:null` by `:0`, and a body without `:null` reaches the decoder unchanged. |
| DbClient.SanitizedPrefix | UnityScripts/DB_WebSocketClient.cs:254 | A prefix of the rewritten text that contains no `:` was already a prefix of the original text. |
| DbClient.SanitizeOccurrence | UnityScripts/DB_WebSocketClient.cs:254 | The first `:null` becomes `:0`: the text before it is kept as it is, and the rewrite goes on after it. |
| DbClient.SanitizeColon | UnityScripts/DB_WebSocketClient.cs:254 | A first `:` that does not start `:null` is kept with the text before it, and the rewrite goes on after it. With `SanitizeOccurrence` and a text without `:null` left unchanged, this fixes the rewritten text. |
| DbClient.UnlockedCodes | UnityScripts/DB_WebSocketClient.cs:262-263 | The list holds exactly the codes of the unlocked stages, and is no longer than the stage list. |
| DbClient.UnlockedCodesAppend | UnityScripts/DB_WebSocketClient.cs:263 | Response order is kept: filtering a concatenation gives the two filtered parts, concatenated. |
| DbClient.UnlockedStatus | UnityScripts/DB_WebSocketClient.cs:266 | The status is the prefix followed by the codes joined with ", " in the given order, or by "(없음)" when there is none. It names every unlocked code. |
| DbClient.UnlockedStatusInResponseOrder | UnityScripts/DB_WebSocketClient.cs:262-266 | The status lists the codes in response order: the unlocked codes of an earlier part of the response come first, then ", ", then those of the later part. |
| DbClient.TwoUnlockedStages | UnityScripts/DB_WebSocketClient.cs:262-266 | Two unlocked stages "A1" then "B2" show as `🔓 해금된 스테이지: A1, B2`. |
| DbClient.OnProgress | UnityScripts/DB_WebSocketClient.cs:248-275 | Nothing is shown unless output was requested. With output, the status is one of three: the HTTP error; the parse-failure line, exactly when the rewritten body decodes to null or has null stages; or the list of unlocked stages. A decoder exception shows nothing. |
| DbClient.OnClickRegister | UnityScripts/DB_WebSocketClient.cs:218-224 | An empty trimmed id gives only the warning. Otherwise the trimmed, non-empty id is posted. The click itself never saves and never fetches. |
| DbClient.OnRegisterResponse | UnityScripts/DB_WebSocketClient.cs:226-235 | A progress fetch with output happens exactly on success, and comes after the id is saved. A failure only sets a status. |
| DbClient.RegisterFlowOrder | UnityScripts/DB_WebSocketClient.cs:218-236 | Across a click and its response, nothing but a status happens without an id, and every progress fetch follows the save of that id. |
| DbClient.SavedBeforeFetchPrepend | UnityScripts/DB_WebSocketClient.cs:223-232 | Putting effects that fetch nothing before a flow keeps every fetch after the save. |
| DbClient.OnClickRefreshProgress | UnityScripts/DB_WebSocketClient.cs:239-245 | One effect: the empty-id warning exactly when the trimmed id is empty, and otherwise a progress fetch with output of the trimmed, non-empty id. The click never registers or saves. |
| DbClient.RefreshChecksLikeRegister | UnityScripts/DB_WebSocketClient.cs:218-245 | Refreshing warns on exactly the id fields registering warns on, and fetches the same id that registering posts. |
| AiClient.SendPrompt | UnityScripts/AI_WebSocketClient.cs:66-102 | Four checks run in order: connected, user id, stage, prompt. Each block happens exactly when the earlier checks pass and this one fails. A submitted request holds the three trimmed, non-empty texts, and its stage is never null. |
| AiClient.SendPromptRoundTrip | UnityScripts/AI_WebSocketClient.cs:74-101 | Typing a request's texts, with any white space around them, submits exactly that request. |
| AiClient.HandleServerMessage | UnityScripts/AI_WebSocketClient.cs:107-125 | A reply that throws or decodes to null leaves the log as it was. A non-empty error is shown in preference to the action. Otherwise the line shows the code and the prompt length. |
| AiClient.ActionLineShowsReply | UnityScripts/AI_WebSocketClient.cs:120-122 | The action line contains the code. It ends with the prompt length in decimal, which parses back to the length. |
| AiClient.ErrorLineShowsError | UnityScripts/AI_WebSocketClient.cs:113-116 | An error line contains the error, and is never the line of an action. |
| ChartLive.DecodeFrame | server/realtime-chart/src/ChartLive.jsx:24-28 | A frame is a snapshot exactly when its type is "snapshot" and its rows are an array. Any other frame is buffered as one record. |
| ChartLive.OnMessage | server/realtime-chart/src/ChartLive.jsx:18-29 | A snapshot replaces the buffer with its rows. Any other frame becomes the last entry of a buffer of at most 500 entries, keeping the newest older entries in order. |
| ChartLive.Feed | server/realtime-chart/src/ChartLive.jsx:18-29 | After a run of frames, a final snapshot is the whole buffer, and a final record is the last entry of a buffer of at most 500 entries. |
| ChartLive.SlidingWindow | server/realtime-chart/src/ChartLive.jsx:27 | However many records arrive, the buffer is the last 500 of everything buffered. |
| ChartLive.SnapshotSupersedes | server/realtime-chart/src/ChartLive.jsx:24-28 | After a snapshot, the buffer depends only on the snapshot's rows and the frames that follow it. |
| ChartLive.BetterIsStrictOrder | server/realtime-chart/src/ChartLive.jsx:45-49 | The comparison is a strict order on (tokens, clear time): a record never beats one with the same key, and of two different keys one beats the other. |
| ChartLive.Upsert | server/realtime-chart/src/ChartLive.jsx:42-51 | A new id is appended at the end. A known id keeps its position, so the ids already present keep their order. |
| ChartLive.BestById | server/realtime-chart/src/ChartLive.jsx:39-52 | The reduction has at most as many entries as the buffer has records, and every entry is of the selected stage. |
| ChartLive.BestCovers | server/realtime-chart/src/ChartLive.jsx:39-52 | The reduction has one entry per id. Every entry is a buffered record of the selected stage, and every id with such a record has an entry. |
| ChartLive.BestIsMinimal | server/realtime-chart/src/ChartLive.jsx:45-51 | No buffered record of the stage beats the entry kept for its id. |
| ChartLive.BestIsFirstSeen | server/realtime-chart/src/ChartLive.jsx:45-51 | The kept entry strictly beats every earlier record of its id, so among tied records the first seen wins. |
| ChartLive.BestInFirstSeenOrder | server/realtime-chart/src/ChartLive.jsx:39-55 | Entries are in Map insertion order: an entry comes before another only if its id was seen first. |
| ChartLive.SortRecords | server/realtime-chart/src/ChartLive.jsx:55-60 | The sort returns a permutation of its input, ascending by tokens and then by clear time. |
| ChartLive.SortIsStable | server/realtime-chart/src/ChartLive.jsx:55-60 | The sort is stable: entries with equal tokens and clear time keep their relative order. |
| ChartLive.SortKeepsDistinctIds | server/realtime-chart/src/ChartLive.jsx:55-60 | Sorting keeps ids distinct. |
| ChartLive.ChartData | server/realtime-chart/src/ChartLive.jsx:35-66 | The chart has one bar per id that has a record of the selected stage, and only those ids. Each bar comes from a buffered record of that stage and is its id's best record. The bars are ascending by tokens, then clear time. |
| ChartLive.WindowForgets | server/realtime-chart/src/ChartLive.jsx:27 | After 500 more records, the chart no longer depends on anything received before them. |
| ChartLive.EvictedBestIsLost | server/realtime-chart/src/ChartLive.jsx:27 | Suppose a player's best record is followed by at least 500 records of any players, and each of them by that player is worse. Then any bar of that player shows a strictly worse result than that best. |
| ChartLive.SnapshotScenario | server/realtime-chart/src/ChartLive.jsx:24-25 | The snapshot of (p1, 9, 300), (p1, 9, 200) and (p2, 5, 100) for stage 1 shows p2 at (5, 100), then p1 at (9, 200). |
| ChartLive.IncrementalScenario | server/realtime-chart/src/ChartLive.jsx:27 | The records (p1, 10, 500), (p1, 8, 600) and (p1, 8, 400), arriving one at a time, show p1 at (8, 400). |
| Json.IntText | server/app/db/schemas.py:5-7 | A string read as an integer: an all-white-space string, or one longer than 4300 characters once trimmed, is no integer. |
| Json.IntTextSound | server/app/db/schemas.py:5-7 | What is read as an integer is white space, at most 4300 characters of an optionally signed digit run, possibly followed by '.' and zeros only, and white space; the value is that of the digit run. |
| Json.SplitOrFractionIsNoInteger | server/app/db/schemas.py:5-7 | "1 2" and "1.5" are not read as integers. |
| Json.IntTextChars | server/app/db/schemas.py:5-7 | Every character of a string read as an integer is white space, a sign, a digit or '.'. |
| Json.IntTextRefuses | server/app/db/schemas.py:5-7 | A string holding any other character, such as a letter, is no integer. |
| Json.IntTextFormatted | server/app/db/schemas.py:5-7 | An integer printed in decimal, with white space around it, is read back as that integer. |
| Json.IntTextDigits | server/app/db/schemas.py:5 | A non-empty run of digits is read as its decimal value. |
| Json.LaxInt | server/app/db/schemas.py:5-7 | An integer field takes a JSON integer, a boolean as 1 or 0, or a string read as an integer. It takes nothing from null or any other value. |
| DbAppSchema.Validate | server/DB_app/db/schemas.py:3-7 | A body missing any of the four fields is refused. A body is accepted only when it has a string id of at most 64 characters, a string stage of at most 4 characters, and tokens and clear time that read as non-negative integers. The accepted run log is what the body says. |
| DbAppSchema.ValidateComplete | server/DB_app/db/schemas.py:3-7 | Any body carrying a valid run log's fields is accepted as that run log, whatever other keys it has. |
| DbAppSchema.DumpValidate | server/DB_app/db/schemas.py:3-7 | A valid run log survives being dumped and validated. |
| AppSchema.Validate | server/app/db/schemas.py:3-7 | The same as the DB app, except that the stage must read as a non-negative integer. |
| AppSchema.ValidateComplete | server/app/db/schemas.py:3-7 | Any body carrying a valid run log's fields is accepted as that run log. |
| AppSchema.DumpValidate | server/app/db/schemas.py:3-7 | A valid run log survives being dumped and validated. |
| SchemaConflict.FitsBothExactly | server/app/db/schemas.py:5 | A body the DB app accepts is accepted by the app model (server/app) exactly when its stage string reads as a non-negative integer, and then as the run log with that number as its stage. |
| SchemaConflict.NumberStageOnlyFitsApp | server/DB_app/db/schemas.py:5 | A valid run log of the app model (server/app), with its stage as a JSON number, is accepted by it and refused by the DB app. |
| SchemaConflict.StageCodeOnlyFitsDbApp | server/app/db/schemas.py:5 | A run log whose stage code does not read as a non-negative integer is accepted by the DB app and refused by the app model (server/app). |
| SchemaConflict.DigitStageFitsBoth | server/app/db/schemas.py:5 | A run log whose stage code is a run of digits, such as "12", is accepted by both apps; the app model (server/app) reads the stage as that number. |
| SchemaConflict.OtherCharIsNoStageNumber | server/app/db/schemas.py:5 | A stage code holding a character other than white space, a sign, a digit or '.' does not read as a stage number, so with `StageCodeOnlyFitsDbApp` it fits only the DB app. |
| SchemaConflict.LetterCodeIsNoStageNumber | server/DB_app/db/schemas.py:5 | The stage code "A1" does not read as a stage number. |
| Generator.GenerateAction | server/AI_app/llm/generator.py:19-29 | The answer is always "WalkForward" with exactly the parameters {"speed": "5"} and no error. Its length is the number of characters in the prompt. |
| Generator.AnswerDependsOnlyOnLength | server/AI_app/llm/generator.py:19-29 | Two requests get the same answer exactly when their prompts have the same length. The user id, the stage and the words do not matter. |

## Left out

- The WebSocket lifecycle is not modelled, for either client or the chart page. This covers connecting, the open/close/error handlers, the 20-second heartbeat and closing on quit. These are network I/O; only the ready state is an input.
- The DB client's HTTP helpers are left out: URLs, certificates, timeouts, and the error text format `HTTP code error :: body`. Only success with a body, or failure with a message, is modelled.
- `PlayerPrefs` and the saved-id restore in `Start` are left out: they are storage and UI. Saving is an effect in the registration flow.
- The JSON text of the payloads and `JsonUtility` itself are not modelled; decoding is a parameter. This means the model does not cover whether the field names the client sends match what the servers read: the client's `code` field against the generator's `actionType`, or `stage_code` against `stage`.
- The game-result status text is not modelled, because it formats float percentiles with `F1`. The model records only which result is shown.
- `ChartLive.ChartData`: the page's `clearSecs` (clear time divided by 1000, a float) is not modelled. Bars carry the clear time in milliseconds.
- `ChartLive.Rec`: records are typed integers. The page's `Number(...)` coercions and comparisons involving `NaN` are not modelled.
- `ChartLive.OnMessage`: React state batching and the stage selector are UI and are not modelled.
- `MainQueue.Update`: actions enqueued while a drain runs are not modelled, and the lock is only needed under concurrency. This covers actions enqueued by other threads and by the actions themselves. The loop in the code would also run those in the same frame.
- `DbClient.SendRunLog`: an exception thrown by `ws.Send` is not modelled; the socket is I/O.
- `DbClient.OnMessage`: an unassigned `logText` is not modelled. The handler would throw, and the exception would be swallowed.
- `AiClient.SendPrompt`: the socket is taken as created, so a click before `Start` has run is not modelled. Unassigned input or log widgets are not modelled either: the client reads the three input fields and the log text without a null check, so an unassigned widget would throw before or instead of the checks. The model takes the three texts as given.
- `AiClient.HandleServerMessage`: an unassigned log widget is not modelled; the handler would throw on the main thread.
- `Int32Text.TryParse`: the sign strings are taken as '+' and '-'. The source parses with the current culture's `NumberFormatInfo`, whose sign strings may differ.
- `AiClient.ActionLineShowsReply`: the prompt length is printed with the invariant culture's minus sign.
- `DbAppSchema.Validate`: JSON numbers with a fraction are not modelled; they fall under `JOther`. pydantic also takes a float with a zero fraction, such as `1.0`, for an integer field, so the model refuses some bodies the source accepts.
- `AppSchema.Validate`: JSON numbers with a fraction are not modelled, as for the DB app model, so a stage, token count or clear time such as `1.0` is refused here.
- `Json.IntText`: underscore digit separators are not modelled. Some pydantic versions accept them in integer strings of 19 or more characters.
- `Generator.GenerateAction`: the function is `async` on the server, but it never suspends, so it is modelled as a plain function.

=== FILE: ai_client.dfy ===
/**
  The Unity AI client: the checks `SendPrompt` runs before submitting a
  prompt, and how `HandleServerMessage` turns the reply into a log line.
  The input fields' texts, the socket's ready state and the outcome of
  `JsonUtility.FromJson` are parameters.
 */
module AiClient {
  import opened Wrappers
  import opened Transport
  import Text
  import Int32Text

  /** The `PromptRequest` sent to the AI server; `stageId` is None when it would serialize as null. */
  datatype PromptRequest = PromptRequest(userId: string, stageId: Option<string>, prompt: string)

  /** Why `SendPrompt` stopped, one per check in the order they run. */
  datatype PromptCheck = NotConnected | MissingUserId | MissingStage | MissingPrompt

  datatype PromptResult = Blocked(check: PromptCheck) | Submitted(request: PromptRequest)

  /** The log line shown when a check fails. */
  function BlockedStatus(check: PromptCheck): string {
    match check
    case NotConnected => "⚠ 서버에 연결되어 있지 않습니다."
    case MissingUserId => "⚠ 유저 ID를 입력하세요."
    case MissingStage => "⚠ Stage를 입력하세요."
    case MissingPrompt => "⚠ 프롬프트를 입력하세요."
  }

  /**
    `SendPrompt()`: the first failing check decides the log line and nothing
    is sent; otherwise the three trimmed texts are sent, and the stage is
    always present, because an empty one was refused before.
   */
  function SendPrompt(ws: ReadyState, userIdText: string, stageIdText: string, promptText: string): (r: PromptResult)
    ensures r == Blocked(NotConnected) <==> ws != Open
    ensures r == Blocked(MissingUserId) <==> ws == Open && Text.Trim(userIdText) == ""
    ensures r == Blocked(MissingStage) <==> ws == Open && Text.Trim(userIdText) != "" && Text.Trim(stageIdText) == ""
    ensures r == Blocked(MissingPrompt) <==>
              ws == Open && Text.Trim(userIdText) != "" && Text.Trim(stageIdText) != "" && Text.Trim(promptText) == ""
    ensures r.Submitted? ==>
              && r.request.userId == Text.Trim(userIdText) && r.request.userId != ""
              && r.request.stageId == Some(Text.Trim(stageIdText)) && r.request.stageId.value != ""
              && r.request.prompt == Text.Trim(promptText) && r.request.prompt != ""
  {
    if ws != Open then Blocked(NotConnected)
    else
      var userId, stageId, prompt := Text.Trim(userIdText), Text.Trim(stageIdText), Text.Trim(promptText);
      if userId == "" then Blocked(MissingUserId)
      else if stageId == "" then Blocked(MissingStage)
      else if prompt == "" then Blocked(MissingPrompt)
      else Submitted(PromptRequest(userId, if stageId == "" then None else Some(stageId), prompt))
  }

  /** A request whose three texts have no surrounding white space and are not empty. */
  predicate Typeable(req: PromptRequest) {
    && req.stageId.Some?
    && Bare(req.userId) && Bare(req.stageId.value) && Bare(req.prompt)
  }

  predicate Bare(s: string) {
    s != [] && !Text.IsWhiteSpace(s[0]) && !Text.IsWhiteSpace(s[|s| - 1])
  }

  /** Round trip: typing a request's texts, with any white space around them, submits exactly that request. */
  lemma SendPromptRoundTrip(req: PromptRequest, w1: string, w2: string, w3: string, w4: string, w5: string, w6: string)
    requires Typeable(req)
    requires Text.AllWhiteSpace(w1) && Text.AllWhiteSpace(w2) && Text.AllWhiteSpace(w3)
    requires Text.AllWhiteSpace(w4) && Text.AllWhiteSpace(w5) && Text.AllWhiteSpace(w6)
    ensures SendPrompt(Open, w1 + req.userId + w2, w3 + req.stageId.value + w4, w5 + req.prompt + w6) == Submitted(req)
  {
    var u, st, pr := w1 + req.userId + w2, w3 + req.stageId.value + w4, w5 + req.prompt + w6;
    TrimBare(w1, req.userId, w2);
    TrimBare(w3, req.stageId.value, w4);
    TrimBare(w5, req.prompt, w6);
    PromptChecksPass(u, st, pr);
  }

  lemma TrimBare(w1: string, t: string, w2: string)
    requires Bare(t) && Text.AllWhiteSpace(w1) && Text.AllWhiteSpace(w2)
    ensures Text.Trim(w1 + t + w2) == t != ""
  {
    Text.TrimPadded(w1, t, w2);
  }

  /** When every check passes, the request is built from the trimmed texts. */
  lemma PromptChecksPass(userIdText: string, stageIdText: string, promptText: string)
    requires Text.Trim(userIdText) != "" && Text.Trim(stageIdText) != "" && Text.Trim(promptText) != ""
    ensures SendPrompt(Open, userIdText, stageIdText, promptText)
            == Submitted(PromptRequest(Text.Trim(userIdText), Some(Text.Trim(stageIdText)), Text.Trim(promptText)))
  {
  }

  /** The client's `ActionResponse`; `code` and `error` are None when null. */
  datatype ActionResponse = ActionResponse(code: Option<string>, promptLen: int, error: Option<string>)

  function ErrorText(error: string): string {
    "❌ 에러: " + error
  }

  /** The log line for a reply without error; a null code prints as nothing. */
  function ActionText(code: Option<string>, promptLen: int): string {
    "✅ 동작: " + code.GetOr("") + "\n프롬프트 길이: " + Int32Text.Format(promptLen)
  }

  /**
    `HandleServerMessage(json)`: the new log line, or None when it is left
    as it was (decoding threw, or decoded to null and the dereference on the
    main thread threw). A non-empty error wins over the action.
   */
  function HandleServerMessage(decoded: Decoded<ActionResponse>): (line: Option<string>)
    ensures !decoded.Decoded? ==> line.None?
    ensures decoded.Decoded? ==> line.Some?
    ensures decoded.Decoded? && decoded.value.error.GetOr("") != "" ==> line == Some(ErrorText(decoded.value.error.value))
    ensures decoded.Decoded? && decoded.value.error.GetOr("") == "" ==>
              line == Some(ActionText(decoded.value.code, decoded.value.promptLen))
  {
    match decoded
    case Decoded(res) =>
      if res.error.GetOr("") != "" then Some(ErrorText(res.error.value))
      else Some(ActionText(res.code, res.promptLen))
    case _ => None
  }

  /**
    The action line shows the code, and its last line is the prompt length
    in decimal, which reads back as the length.
   */
  lemma ActionLineShowsReply(res: ActionResponse)
    requires res.error.GetOr("") == ""
    requires Int32Text.MinInt32 <= res.promptLen <= Int32Text.MaxInt32
    ensures var line := HandleServerMessage(Decoded(res)).value;
            var digits := Int32Text.Format(res.promptLen);
            && Text.Contains(line, res.code.GetOr(""))
            && |digits| <= |line| && line[|line| - |digits|..] == digits
            && Int32Text.TryParse(line[|line| - |digits|..]) == Some(res.promptLen)
  {
    var code := res.code.GetOr("");
    var digits := Int32Text.Format(res.promptLen);
    var line := ActionText(res.code, res.promptLen);
    assert line == "✅ 동작: " + code + ("\n프롬프트 길이: " + digits);
    Text.ContainsInConcat("✅ 동작: ", code, "\n프롬프트 길이: " + digits);
    Int32Text.ParseFormat(res.promptLen);
  }

  /** An error reply is never shown as an action, and the line names the error. */
  lemma ErrorLineShowsError(res: ActionResponse)
    requires res.error.GetOr("") != ""
    ensures var line := HandleServerMessage(Decoded(res)).value;
            Text.Contains(line, res.error.value) && line != ActionText(res.code, res.promptLen)
  {
    var line := ErrorText(res.error.value);
    Text.ContainsInConcat("❌ 에러: ", res.error.value, "");
    assert "❌ 에러: " + res.error.value + "" == line;
    assert line[0] != ActionText(res.code, res.promptLen)[0];
  }
}

=== FILE: chart_live.dfy ===
/**
  The live leaderboard page of the realtime chart: a buffer of raw frames fed
  by a WebSocket (a snapshot replaces it, any other frame is appended and the
  buffer keeps its last 500 entries), and the chart data derived from the
  buffer for the selected stage (that stage's records only, the best record
  per id, sorted by tokens and then clear time).

  Record fields are modelled as integers: the page's `Number(...)` coercions
  and NaN comparisons are not modelled.
 */
module ChartLive {
  import opened Wrappers

  /** Entries the buffer keeps after an appended frame: `slice(-499)` plus the new frame. */
  const Window: nat := 500

  /**
    A frame read as a leaderboard record. `extra` stands for the frame's
    other fields: they take no part in the view, but they tell apart two
    records with the same id, stage, tokens and clear time.
   */
  datatype Rec = Rec(id: string, stage: int, tokens: int, clearTime: int, extra: string)

  /** A chart-feed frame: a full snapshot of rows, or anything else (buffered as one record). */
  datatype Frame = Snapshot(rows: seq<Rec>) | Single(rec: Rec)

  /**
    The frame test of `ws.onmessage`: only `type === "snapshot"` together
    with an array `rows` makes a snapshot. `msgType` is the frame's `type`,
    `rows` its `rows` when that is an array, `asRec` the frame itself.
   */
  function DecodeFrame(msgType: Option<string>, rows: Option<seq<Rec>>, asRec: Rec): (f: Frame)
    ensures f.Snapshot? <==> msgType == Some("snapshot") && rows.Some?
    ensures f.Snapshot? ==> f.rows == rows.value
    ensures f.Single? ==> f.rec == asRec
  {
    if msgType == Some("snapshot") && rows.Some? then Snapshot(rows.value) else Single(asRec)
  }

  // ---------------------------------------------------------------------
  // The frame buffer
  // ---------------------------------------------------------------------

  /** `xs.slice(-n)` for a positive `n`: the last `n` elements, or all of them. */
  function Last<T>(xs: seq<T>, n: nat): (r: seq<T>)
    ensures |r| == if |xs| < n then |xs| else n
    ensures r == xs[|xs| - |r|..]
  {
    if |xs| <= n then xs else xs[|xs| - n..]
  }

  /**
    `ws.onmessage` applied to the buffer `raw`. A snapshot replaces the
    buffer with exactly its rows (no bound applies). Any other frame ends the
    new buffer, which is at most 500 long and keeps the newest of the older
    entries in their order.
   */
  function OnMessage(raw: seq<Rec>, f: Frame): (r: seq<Rec>)
    ensures f.Snapshot? ==> r == f.rows
    ensures f.Single? ==> |r| == (if |raw| < Window then |raw| + 1 else Window)
    ensures f.Single? ==> r[|r| - 1] == f.rec && r[..|r| - 1] == raw[|raw| - (|r| - 1)..]
  {
    match f
    case Snapshot(rows) => rows
    case Single(m) => Last(raw, Window - 1) + [m]
  }

  /**
    The buffer after the frames arrive in order: a final snapshot is the
    buffer, and a final record ends a buffer of at most 500 entries.
   */
  function Feed(raw: seq<Rec>, frames: seq<Frame>): (r: seq<Rec>)
    ensures frames != [] && frames[|frames| - 1].Snapshot? ==> r == frames[|frames| - 1].rows
    ensures frames != [] && frames[|frames| - 1].Single? ==>
              0 < |r| <= Window && r[|r| - 1] == frames[|frames| - 1].rec
  {
    if frames == [] then raw else OnMessage(Feed(raw, frames[..|frames| - 1]), frames[|frames| - 1])
  }

  /** Every record sent as a frame of its own. */
  function Singles(ms: seq<Rec>): (fs: seq<Frame>)
    ensures |fs| == |ms|
    ensures forall i :: 0 <= i < |ms| ==> fs[i] == Single(ms[i])
  {
    seq(|ms|, i requires 0 <= i < |ms| => Single(ms[i]))
  }

  lemma LastOfLast<T>(xs: seq<T>, a: nat, b: nat)
    requires b <= a
    ensures Last(Last(xs, a), b) == Last(xs, b)
  {
  }

  lemma LastOfShort<T>(xs: seq<T>, n: nat)
    requires |xs| <= n
    ensures Last(xs, n) == xs
  {
  }

  lemma LastAppend<T>(xs: seq<T>, m: T, n: nat)
    requires n > 0
    ensures Last(xs + [m], n) == Last(xs, n - 1) + [m]
  {
    var ys := xs + [m];
    assert ys[|ys| - |Last(ys, n)|..] == Last(ys, n);
  }

  /**
    A sliding window: however many records arrive, the buffer is the last 500
    of everything buffered so far, oldest first.
   */
  lemma {:induction false} SlidingWindow(raw: seq<Rec>, ms: seq<Rec>)
    requires ms != []
    ensures Feed(raw, Singles(ms)) == Last(raw + ms, Window)
  {
    var n := |ms|;
    var m := ms[n - 1];
    var front := ms[..n - 1];
    SinglesPrefix(ms);
    assert raw + ms == (raw + front) + [m];
    LastAppend(raw + front, m, Window);
    if front == [] {
      assert raw + front == raw;
    } else {
      SlidingWindow(raw, front);
      LastOfLast(raw + front, Window, Window - 1);
    }
  }

  lemma SinglesPrefix(ms: seq<Rec>)
    requires ms != []
    ensures Singles(ms)[..|ms| - 1] == Singles(ms[..|ms| - 1])
    ensures Singles(ms)[|ms| - 1] == Single(ms[|ms| - 1])
  {
  }

  /**
    A snapshot supersedes everything before it: the buffer after it depends
    only on its rows and the frames that follow.
   */
  lemma {:induction false} SnapshotSupersedes(raw: seq<Rec>, before: seq<Frame>, rows: seq<Rec>, after: seq<Frame>)
    ensures Feed(raw, before + [Snapshot(rows)] + after) == Feed(rows, after)
  {
    var all := before + [Snapshot(rows)] + after;
    var n := |all|;
    FeedLast(raw, all);
    if after == [] {
      assert all[n - 1] == Snapshot(rows);
      assert all[..n - 1] == before;
    } else {
      var k := |after|;
      var last := after[k - 1];
      var pre := before + [Snapshot(rows)] + after[..k - 1];
      assert all == pre + [last];
      assert all[..n - 1] == pre;
      SnapshotSupersedes(raw, before, rows, after[..k - 1]);
      FeedLast(rows, after);
    }
  }

  lemma FeedLast(raw: seq<Rec>, frames: seq<Frame>)
    requires frames != []
    ensures Feed(raw, frames) == OnMessage(Feed(raw, frames[..|frames| - 1]), frames[|frames| - 1])
  {
  }

  // ---------------------------------------------------------------------
  // Best record per id
  // ---------------------------------------------------------------------

  /**
    The page's `better` test: `d` replaces `current` only with strictly fewer
    tokens, or as many tokens and a strictly shorter clear time.
   */
  predicate Better(d: Rec, current: Rec) {
    d.tokens < current.tokens || (d.tokens == current.tokens && d.clearTime < current.clearTime)
  }

  /**
    `Better` is a strict order on the key (tokens, clear time): no record
    beats itself or a record with the same key, and of two records with
    different keys one beats the other.
   */
  lemma BetterIsStrictOrder(a: Rec, b: Rec, c: Rec)
    ensures !Better(a, a)
    ensures a.tokens == b.tokens && a.clearTime == b.clearTime ==> !Better(a, b) && !Better(b, a)
    ensures Better(a, b) ==> !Better(b, a)
    ensures Better(a, b) && Better(b, c) ==> Better(a, c)
    ensures (a.tokens, a.clearTime) != (b.tokens, b.clearTime) ==> Better(a, b) || Better(b, a)
  {
  }

  predicate DistinctIds(xs: seq<Rec>) {
    forall i, j :: 0 <= i < j < |xs| ==> xs[i].id != xs[j].id
  }

  /** `bestById.get(id)`: the position of `id` in the map's entries, if any. */
  function Find(best: seq<Rec>, id: string): (r: Option<nat>)
    ensures r.Some? ==> r.value < |best| && best[r.value].id == id
    ensures r.None? ==> forall k :: 0 <= k < |best| ==> best[k].id != id
  {
    if best == [] then None
    else if best[0].id == id then Some(0)
    else match Find(best[1..], id)
      case Some(k) => Some(k + 1)
      case None => None
  }

  /**
    One step of the loop: `bestById.set(d.id, d)` when the id is new or `d`
    is better. A JavaScript Map keeps an existing key in its place and adds a
    new key at the end, so the ids already present keep their positions.
   */
  function Upsert(best: seq<Rec>, d: Rec): (r: seq<Rec>)
    ensures Find(best, d.id).None? ==> r == best + [d]
    ensures Find(best, d.id).Some? ==> |r| == |best|
    ensures forall k :: 0 <= k < |best| ==> r[k].id == best[k].id
    ensures forall k :: 0 <= k < |r| ==> r[k] == d || (k < |best| && r[k] == best[k])
  {
    match Find(best, d.id)
    case None => best + [d]
    case Some(k) => if Better(d, best[k]) then best[k := d] else best
  }

  /**
    The values of `bestById` after the loop over `raw`, in Map insertion
    order: at most one entry per record, all of the selected stage.
   */
  function BestById(raw: seq<Rec>, stage: int): (best: seq<Rec>)
    ensures |best| <= |raw|
    ensures forall k :: 0 <= k < |best| ==> best[k].stage == stage
  {
    if raw == [] then []
    else
      var best := BestById(raw[..|raw| - 1], stage);
      var d := raw[|raw| - 1];
      if d.stage != stage then best else Upsert(best, d)
  }

  /**
    The entries have distinct ids; each is a buffered record of the stage;
    and every id with a record of the stage has an entry.
   */
  lemma {:induction false} BestCovers(raw: seq<Rec>, stage: int)
    ensures DistinctIds(BestById(raw, stage))
    ensures forall r :: r in BestById(raw, stage) ==> r in raw && r.stage == stage
    ensures forall i :: 0 <= i < |raw| && raw[i].stage == stage ==> Find(BestById(raw, stage), raw[i].id).Some?
  {
    if raw != [] {
      var front := raw[..|raw| - 1];
      var d := raw[|raw| - 1];
      BestCovers(front, stage);
      var best := BestById(front, stage);
      var best' := BestById(raw, stage);
      forall i | 0 <= i < |raw| && raw[i].stage == stage
        ensures Find(best', raw[i].id).Some?
      {
        if i < |front| {
          assert raw[i] == front[i];
          var k := Find(best, raw[i].id).value;
          assert best'[k].id == raw[i].id;
        } else if Find(best, d.id).None? {
          assert best'[|best|] == d;
        } else {
          var k := Find(best, d.id).value;
          assert best'[k].id == d.id;
        }
      }
    }
  }

  /** Minimality: no buffered record of the stage beats the entry kept for its id. */
  lemma {:induction false} BestIsMinimal(raw: seq<Rec>, stage: int)
    ensures forall r, i :: r in BestById(raw, stage) && 0 <= i < |raw| && raw[i].stage == stage && raw[i].id == r.id
                           ==> !Better(raw[i], r)
  {
    if raw != [] {
      var front := raw[..|raw| - 1];
      var d := raw[|raw| - 1];
      BestIsMinimal(front, stage);
      BestCovers(front, stage);
      var best := BestById(front, stage);
      var best' := BestById(raw, stage);
      forall r, i | r in best' && 0 <= i < |raw| && raw[i].stage == stage && raw[i].id == r.id
        ensures !Better(raw[i], r)
      {
        if d.stage != stage {
          assert raw[i] == front[i];
        } else {
          match Find(best, d.id)
          case None =>
            if r != d {
              assert r in best;
              if i == |front| {
                // `d`'s id was not in the map, but `r` was and has the same id
                assert false;
              }
              assert raw[i] == front[i];
            }
          case Some(m) =>
            if Better(d, best[m]) {
              var k :| 0 <= k < |best'| && best'[k] == r;
              if k == m {
                if i < |front| {
                  assert raw[i] == front[i];
                  assert !Better(front[i], best[m]);
                }
              } else {
                assert r == best[k];
                if i == |front| {
                  assert false;
                }
                assert raw[i] == front[i];
              }
            } else {
              if i < |front| {
                assert raw[i] == front[i];
              } else {
                var k :| 0 <= k < |best| && best[k] == r;
                assert k == m;
              }
            }
        }
      }
    }
  }

  /** The record at `j` beats every earlier record of its id for the stage. */
  predicate BeatsEarlier(raw: seq<Rec>, stage: int, j: int)
    requires 0 <= j < |raw|
  {
    forall i :: 0 <= i < j && raw[i].stage == stage && raw[i].id == raw[j].id ==> Better(raw[j], raw[i])
  }

  lemma BeatsEarlierInLonger(front: seq<Rec>, d: Rec, stage: int, j: int)
    requires 0 <= j < |front| && BeatsEarlier(front, stage, j)
    ensures BeatsEarlier(front + [d], stage, j)
  {
    var raw := front + [d];
    forall i | 0 <= i < j && raw[i].stage == stage && raw[i].id == raw[j].id
      ensures Better(raw[j], raw[i])
    {
      assert raw[i] == front[i] && raw[j] == front[j];
    }
  }

  /**
    First seen wins ties: the kept entry is a buffered record that beats
    every earlier record of its id for the stage. Because the comparisons
    are strict, among records tying for the best the earliest is kept.
   */
  lemma {:induction false} BestIsFirstSeen(raw: seq<Rec>, stage: int, r: Rec)
    requires r in BestById(raw, stage)
    ensures exists j :: 0 <= j < |raw| && raw[j] == r && BeatsEarlier(raw, stage, j)
  {
    var front := raw[..|raw| - 1];
    var d := raw[|raw| - 1];
    assert raw == front + [d];
    var best := BestById(front, stage);
    if r in best {
      BestIsFirstSeen(front, stage, r);
      var j :| 0 <= j < |front| && front[j] == r && BeatsEarlier(front, stage, j);
      BeatsEarlierInLonger(front, d, stage, j);
      assert raw[j] == r;
    } else {
      BestCovers(front, stage);
      BestIsMinimal(front, stage);
      var j := |front|;
      assert r == d;
      forall i | 0 <= i < j && raw[i].stage == stage && raw[i].id == raw[j].id
        ensures Better(raw[j], raw[i])
      {
        assert raw[i] == front[i];
        var m := Find(best, d.id).value;
        assert !Better(front[i], best[m]);
      }
      assert BeatsEarlier(raw, stage, j);
    }
  }

  /** `id` has a buffered record of the stage before index `i`. */
  predicate SeenBefore(raw: seq<Rec>, stage: int, id: string, i: int) {
    exists i' :: 0 <= i' < i && i' < |raw| && raw[i'].stage == stage && raw[i'].id == id
  }

  /**
    Map insertion order: an entry comes before another only if its id was
    seen first, so every record of the later entry's id is preceded by a
    record of the earlier entry's id.
   */
  lemma {:induction false} BestInFirstSeenOrder(raw: seq<Rec>, stage: int, k1: nat, k2: nat, i: nat)
    requires k1 < k2 < |BestById(raw, stage)|
    requires i < |raw| && raw[i].stage == stage && raw[i].id == BestById(raw, stage)[k2].id
    ensures SeenBefore(raw, stage, BestById(raw, stage)[k1].id, i)
  {
    var front := raw[..|raw| - 1];
    var d := raw[|raw| - 1];
    var best := BestById(front, stage);
    var best' := BestById(raw, stage);
    BestCovers(front, stage);
    if d.stage != stage {
      assert raw[i] == front[i];
      BestInFirstSeenOrder(front, stage, k1, k2, i);
      var i' :| 0 <= i' < i && i' < |front| && front[i'].stage == stage && front[i'].id == best[k1].id;
      assert raw[i'] == front[i'];
    } else {
      assert best'[k1].id == best[k1].id;
      assert best[k1] in best;
      var i' :| 0 <= i' < |front| && front[i'] == best[k1];
      assert raw[i'] == front[i'];
      if i < |front| {
        assert raw[i] == front[i];
        if k2 < |best| {
          assert best'[k2].id == best[k2].id;
          BestInFirstSeenOrder(front, stage, k1, k2, i);
          var i'' :| 0 <= i'' < i && i'' < |front| && front[i''].stage == stage && front[i''].id == best[k1].id;
          assert raw[i''] == front[i''];
        } else {
          // the id at `k2` is new, so no earlier record of the stage has it
          assert false;
        }
      }
    }
  }

  // ---------------------------------------------------------------------
  // Sorting
  // ---------------------------------------------------------------------

  /** Ascending by tokens, ties ascending by clear time. */
  predicate Sorted(xs: seq<Rec>) {
    forall i, j :: 0 <= i < j < |xs| ==> !Better(xs[j], xs[i])
  }

  /** Insert `x` before the first element that is not strictly better than it. */
  function Insert(x: Rec, xs: seq<Rec>): (r: seq<Rec>)
    ensures multiset(r) == multiset(xs) + multiset{x}
  {
    if xs == [] then [x]
    else if !Better(xs[0], x) then [x] + xs
    else
      assert xs == [xs[0]] + xs[1..];
      [xs[0]] + Insert(x, xs[1..])
  }

  lemma {:induction false} InsertKeepsSorted(x: Rec, xs: seq<Rec>)
    requires Sorted(xs)
    ensures Sorted(Insert(x, xs))
  {
    if xs != [] && Better(xs[0], x) {
      var rest := Insert(x, xs[1..]);
      InsertKeepsSorted(x, xs[1..]);
      var r := [xs[0]] + rest;
      forall j | 0 < j < |r| ensures !Better(r[j], r[0]) {
        assert r[j] in multiset(rest);
        if r[j] != x {
          assert r[j] in multiset(xs[1..]);
          var k :| 0 <= k < |xs[1..]| && xs[1..][k] == r[j];
          assert xs[k + 1] == r[j];
        }
      }
      assert forall i, j :: 0 < i < j < |r| ==> r[i] == rest[i - 1] && r[j] == rest[j - 1];
    }
  }

  /**
    `Array.prototype.sort` with the page's comparator. The comparator orders
    by tokens, then by clear time, and the sort is stable, so entries that
    tie on both keep their order.
   */
  function SortRecords(xs: seq<Rec>): (r: seq<Rec>)
    ensures multiset(r) == multiset(xs)
    ensures Sorted(r)
  {
    if xs == [] then []
    else
      assert xs == [xs[0]] + xs[1..];
      var sorted := SortRecords(xs[1..]);
      InsertKeepsSorted(xs[0], sorted);
      Insert(xs[0], sorted)
  }

  /** The elements of `xs` whose tokens and clear time are those given, in order. */
  function WithKey(xs: seq<Rec>, tokens: int, clearTime: int): seq<Rec> {
    if xs == [] then []
    else (if xs[0].tokens == tokens && xs[0].clearTime == clearTime then [xs[0]] else [])
         + WithKey(xs[1..], tokens, clearTime)
  }

  lemma {:induction false} InsertWithKey(x: Rec, xs: seq<Rec>, tokens: int, clearTime: int)
    ensures WithKey(Insert(x, xs), tokens, clearTime)
         == (if x.tokens == tokens && x.clearTime == clearTime then [x] else []) + WithKey(xs, tokens, clearTime)
  {
    var r := Insert(x, xs);
    var hasKey := x.tokens == tokens && x.clearTime == clearTime;
    if xs == [] {
    } else if !Better(xs[0], x) {
      assert r == [x] + xs;
      assert r[0] == x && r[1..] == xs;
    } else {
      var rest := Insert(x, xs[1..]);
      assert r == [xs[0]] + rest;
      assert r[0] == xs[0] && r[1..] == rest;
      InsertWithKey(x, xs[1..], tokens, clearTime);
      assert WithKey(r, tokens, clearTime)
          == (if xs[0].tokens == tokens && xs[0].clearTime == clearTime then [xs[0]] else []) + WithKey(rest, tokens, clearTime);
      if hasKey {
        assert !(xs[0].tokens == tokens && xs[0].clearTime == clearTime);
      }
    }
  }

  /** Stability: sorting keeps the relative order of entries with equal keys. */
  lemma {:induction false} SortIsStable(xs: seq<Rec>, tokens: int, clearTime: int)
    ensures WithKey(SortRecords(xs), tokens, clearTime) == WithKey(xs, tokens, clearTime)
  {
    if xs != [] {
      SortIsStable(xs[1..], tokens, clearTime);
      InsertWithKey(xs[0], SortRecords(xs[1..]), tokens, clearTime);
    }
  }

  lemma {:induction false} InsertKeepsDistinctIds(x: Rec, xs: seq<Rec>)
    requires DistinctIds(xs)
    requires forall y :: y in xs ==> y.id != x.id
    ensures DistinctIds(Insert(x, xs))
  {
    if xs != [] && Better(xs[0], x) {
      var rest := Insert(x, xs[1..]);
      InsertKeepsDistinctIds(x, xs[1..]);
      var r := [xs[0]] + rest;
      forall j | 0 < j < |r| ensures r[0].id != r[j].id {
        assert r[j] in multiset(rest);
        assert r[j] == x || r[j] in multiset(xs[1..]);
      }
    }
  }

  lemma {:induction false} SortKeepsDistinctIds(xs: seq<Rec>)
    requires DistinctIds(xs)
    ensures DistinctIds(SortRecords(xs))
  {
    if xs != [] {
      SortKeepsDistinctIds(xs[1..]);
      var sorted := SortRecords(xs[1..]);
      forall y | y in sorted ensures y.id != xs[0].id {
        assert y in multiset(xs[1..]);
      }
      InsertKeepsDistinctIds(xs[0], sorted);
    }
  }

  // ---------------------------------------------------------------------
  // The chart data
  // ---------------------------------------------------------------------

  /** One bar of the chart. The page also divides `clearTime` by 1000 into a float `clearSecs`. */
  datatype Bar = Bar(id: string, tokens: int, clearTime: int)

  function BarOf(r: Rec): Bar {
    Bar(r.id, r.tokens, r.clearTime)
  }

  /** The `chartData` memo: the best record per id for the stage, sorted, as bars. */
  function ChartData(raw: seq<Rec>, stage: int): (bars: seq<Bar>)
    // every bar is a buffered record of the selected stage
    ensures forall b :: b in bars ==> exists r :: r in raw && r.stage == stage && BarOf(r) == b
    // one bar per id, and exactly the ids with a record of the stage
    ensures forall i, j :: 0 <= i < j < |bars| ==> bars[i].id != bars[j].id
    ensures (set b | b in bars :: b.id) == (set r | r in raw && r.stage == stage :: r.id)
    // each bar is lexicographically minimal among its id's records of the stage
    ensures forall b, r :: b in bars && r in raw && r.stage == stage && r.id == b.id
                           ==> b.tokens < r.tokens || (b.tokens == r.tokens && b.clearTime <= r.clearTime)
    // ascending by tokens, ties ascending by clear time
    ensures forall i, j :: 0 <= i < j < |bars| ==>
              bars[i].tokens < bars[j].tokens || (bars[i].tokens == bars[j].tokens && bars[i].clearTime <= bars[j].clearTime)
  {
    var best := BestById(raw, stage);
    var ranked := SortRecords(best);
    var bars := seq(|ranked|, i requires 0 <= i < |ranked| => BarOf(ranked[i]));
    BestCovers(raw, stage);
    BestIsMinimal(raw, stage);
    SortKeepsDistinctIds(best);
    assert forall r :: r in ranked <==> r in best by {
      forall r ensures r in ranked <==> r in best {
        assert r in ranked <==> r in multiset(ranked);
      }
    }
    BarsOrigin(raw, stage, ranked, bars);
    BarIdsCover(raw, stage, best, ranked, bars);
    bars
  }

  lemma BarsOrigin(raw: seq<Rec>, stage: int, ranked: seq<Rec>, bars: seq<Bar>)
    requires |bars| == |ranked| && forall i :: 0 <= i < |ranked| ==> bars[i] == BarOf(ranked[i])
    requires forall r :: r in ranked ==> r in raw && r.stage == stage
    ensures forall b :: b in bars ==> exists r :: r in raw && r.stage == stage && BarOf(r) == b
  {
    forall b | b in bars ensures exists r :: r in raw && r.stage == stage && BarOf(r) == b {
      var i :| 0 <= i < |bars| && bars[i] == b;
      assert ranked[i] in ranked;
    }
  }

  lemma BarIdsCover(raw: seq<Rec>, stage: int, best: seq<Rec>, ranked: seq<Rec>, bars: seq<Bar>)
    requires |bars| == |ranked| && forall i :: 0 <= i < |ranked| ==> bars[i] == BarOf(ranked[i])
    requires forall r :: r in ranked <==> r in best
    requires forall r :: r in best ==> r in raw && r.stage == stage
    requires forall i :: 0 <= i < |raw| && raw[i].stage == stage ==> Find(best, raw[i].id).Some?
    ensures (set b | b in bars :: b.id) == (set r | r in raw && r.stage == stage :: r.id)
  {
    var left := set b | b in bars :: b.id;
    var right := set r | r in raw && r.stage == stage :: r.id;
    forall id | id in left ensures id in right {
      var b :| b in bars && b.id == id;
      var i :| 0 <= i < |bars| && bars[i] == b;
      assert ranked[i] in ranked;
    }
    forall id | id in right ensures id in left {
      var r :| r in raw && r.stage == stage && r.id == id;
      var i :| 0 <= i < |raw| && raw[i] == r;
      var k := Find(best, id).value;
      assert best[k] in best;
      var j :| 0 <= j < |ranked| && ranked[j] == best[k];
      assert bars[j] in bars;
    }
  }

  /**
    The page keeps no memory beyond its buffer: once 500 records have
    arrived after a record, the chart is as if it had never been received,
    even when it was its id's best.
   */
  lemma WindowForgets(raw1: seq<Rec>, raw2: seq<Rec>, ms: seq<Rec>, stage: int)
    requires |ms| >= Window
    ensures ChartData(Feed(raw1, Singles(ms)), stage) == ChartData(Feed(raw2, Singles(ms)), stage)
  {
    BufferForgets(raw1, ms);
    BufferForgets(raw2, ms);
  }

  lemma BufferForgets(raw: seq<Rec>, ms: seq<Rec>)
    requires |ms| >= Window
    ensures Feed(raw, Singles(ms)) == ms[|ms| - Window..]
  {
    SlidingWindow(raw, ms);
    SuffixOfConcat(raw, ms, Window);
  }

  lemma SuffixOfConcat<T>(a: seq<T>, b: seq<T>, n: nat)
    requires n <= |b|
    ensures (a + b)[|a + b| - n..] == b[|b| - n..]
  {
  }

  /**
    A best record pushed out of the window is lost: when the 500 records
    that follow it are all worse for its id, the bar for that id shows a
    worse result than the best one ever received.
   */
  lemma EvictedBestIsLost(best: Rec, ms: seq<Rec>)
    requires |ms| >= Window
    requires forall m :: m in ms && m.id == best.id ==> Better(best, m)
    ensures forall b :: b in ChartData(Feed([best], Singles(ms)), best.stage) && b.id == best.id
                        ==> b.tokens > best.tokens || (b.tokens == best.tokens && b.clearTime > best.clearTime)
  {
    var buf := Feed([best], Singles(ms));
    BufferForgets([best], ms);
    InSuffix(ms, Window);
    var bars := ChartData(buf, best.stage);
    forall b | b in bars && b.id == best.id
      ensures b.tokens > best.tokens || (b.tokens == best.tokens && b.clearTime > best.clearTime)
    {
      var r :| r in buf && r.stage == best.stage && BarOf(r) == b;
      assert Better(best, r);
    }
  }

  lemma InSuffix<T>(b: seq<T>, n: nat)
    requires n <= |b|
    ensures forall x :: x in b[|b| - n..] ==> x in b
  {
    forall x | x in b[|b| - n..] ensures x in b {
      var i :| 0 <= i < n && b[|b| - n..][i] == x;
      assert b[|b| - n + i] == x;
    }
  }

  /**
    A snapshot with two records for one participant and one for another:
    the chart shows each participant's best, fewest tokens first.
   */
  lemma SnapshotScenario(raw: seq<Rec>)
    ensures ChartData(OnMessage(raw, Snapshot([Rec("p1", 1, 9, 300, ""), Rec("p1", 1, 9, 200, ""), Rec("p2", 1, 5, 100, "")])), 1)
         == [Bar("p2", 5, 100), Bar("p1", 9, 200)]
  {
    var a, b, c := Rec("p1", 1, 9, 300, ""), Rec("p1", 1, 9, 200, ""), Rec("p2", 1, 5, 100, "");
    var rows := [a, b, c];
    assert rows[..1] == [a] && rows[..2] == [a, b] && [a, b][..1] == [a];
    assert BestById([a], 1) == [a];
    assert Find([a], "p1") == Some(0);
    assert BestById([a, b], 1) == [b];
    assert Find([b], "p2") == None;
    assert BestById(rows, 1) == [b, c];
    assert [b, c][1..] == [c];
    assert SortRecords([c]) == [c];
    assert Insert(b, [c]) == [c, b];
    assert SortRecords([b, c]) == [c, b];
  }

  /**
    Three records of one participant in one stage: the bar shows the fewest
    tokens, ties broken by the shorter clear time.
   */
  lemma IncrementalScenario()
    ensures ChartData(Feed([], [Single(Rec("p1", 1, 10, 500, "")), Single(Rec("p1", 1, 8, 600, "")), Single(Rec("p1", 1, 8, 400, ""))]), 1)
         == [Bar("p1", 8, 400)]
  {
    var a, b, c := Rec("p1", 1, 10, 500, ""), Rec("p1", 1, 8, 600, ""), Rec("p1", 1, 8, 400, "");
    IncrementalBuffer(a, b, c);
    IncrementalView(a, b, c);
  }

  lemma IncrementalBuffer(a: Rec, b: Rec, c: Rec)
    ensures Feed([], [Single(a), Single(b), Single(c)]) == [a, b, c]
  {
    var ms := [a, b, c];
    assert Singles(ms) == [Single(a), Single(b), Single(c)];
    SlidingWindow([], ms);
    assert [] + ms == ms;
    LastOfShort(ms, Window);
  }

  lemma IncrementalView(a: Rec, b: Rec, c: Rec)
    requires a == Rec("p1", 1, 10, 500, "") && b == Rec("p1", 1, 8, 600, "") && c == Rec("p1", 1, 8, 400, "")
    ensures ChartData([a, b, c], 1) == [Bar("p1", 8, 400)]
  {
    var ms := [a, b, c];
    assert ms[..1] == [a] && ms[..2] == [a, b] && [a, b][..1] == [a];
    assert BestById([a], 1) == [a];
    assert BestById([a, b], 1) == [b];
    assert BestById(ms, 1) == [c];
    assert SortRecords([c]) == [c];
  }
}

=== FILE: db_client.dfy ===
/**
  The decision logic of the Unity DB client: sending a run log over the
  WebSocket, classifying inbound frames, presenting the progress response,
  and registering a player id. The network, coroutines and UI widgets are
  outside the model: UI fields are optional texts (None when the widget is
  not assigned), JSON decoding is a parameter, and what the client does is
  returned as values (a status text, a payload, a list of effects).
 */
module DbClient {
  import opened Wrappers
  import opened Transport
  import Text
  import Int32Text

  /** The text of an optional input field after `.Trim()`, or "" when the field is not assigned. */
  function TrimmedField(field: Option<string>): string {
    match field
    case None => ""
    case Some(t) => Text.Trim(t)
  }

  const EnterIdStatus: string := "⚠ ID를 입력하세요."

  // ---------------------------------------------------------------------
  // SendRunLog
  // ---------------------------------------------------------------------

  /** The run-log payload the client serializes and sends. */
  datatype RunLog = RunLog(userId: string, stageCode: string, promptLength: int, clearTimeMs: int)

  /** Why `SendRunLog` stopped, one per check in the order they run. */
  datatype SendCheck = SocketNotOpen | MissingId | InvalidTokens | InvalidClearTime | MissingStage

  datatype SendResult = Refused(check: SendCheck) | Sent(payload: RunLog)

  /** The status line `SendRunLog` shows when a check fails. */
  function RefusalStatus(check: SendCheck): string {
    match check
    case SocketNotOpen => "⚠ WS 미연결"
    case MissingId => EnterIdStatus
    case InvalidTokens => "⚠ 토큰 수가 올바르지 않습니다."
    case InvalidClearTime => "⚠ 클리어 시간이 올바르지 않습니다.(ms)"
    case MissingStage => "⚠ 스테이지 코드가 올바르지 않습니다.(예:A1)"
  }

  /** Each failed check has its own status line. */
  lemma RefusalStatusesDistinct(a: SendCheck, b: SendCheck)
    requires a != b
    ensures RefusalStatus(a) != RefusalStatus(b)
  {
  }

  /** `int.TryParse` of a count field (an unassigned field reads "0"), accepted only when it is not negative. */
  function ParsedCount(field: Option<string>): (r: Option<int>)
    ensures r.Some? ==> 0 <= r.value <= Int32Text.MaxInt32
    ensures field.None? ==> r == Some(0)
  {
    Int32Text.ParseFormat(0);
    assert Int32Text.Format(0) == "0";
    match Int32Text.TryParse(field.GetOr("0"))
    case Some(v) => if v >= 0 then Some(v) else None
    case None => None
  }

  /**
    `SendRunLog()`: the checks run in a fixed order and the first that fails
    decides the status; nothing is sent then. When all pass, the payload
    holds exactly the trimmed id and stage and the two parsed counts.
   */
  function SendRunLog(ws: Option<ReadyState>, idField: Option<string>, tokensField: Option<string>,
                      clearTimeField: Option<string>, stageField: Option<string>): (r: SendResult)
    ensures r == Refused(SocketNotOpen) <==> ws != Some(Open)
    ensures r == Refused(MissingId) <==> ws == Some(Open) && TrimmedField(idField) == ""
    ensures r == Refused(InvalidTokens) <==>
              ws == Some(Open) && TrimmedField(idField) != "" && ParsedCount(tokensField).None?
    ensures r == Refused(InvalidClearTime) <==>
              ws == Some(Open) && TrimmedField(idField) != "" && ParsedCount(tokensField).Some?
              && ParsedCount(clearTimeField).None?
    ensures r == Refused(MissingStage) <==>
              ws == Some(Open) && TrimmedField(idField) != "" && ParsedCount(tokensField).Some?
              && ParsedCount(clearTimeField).Some? && TrimmedField(stageField) == ""
    ensures r.Sent? ==>
              && r.payload.userId == TrimmedField(idField) && r.payload.userId != ""
              && r.payload.stageCode == TrimmedField(stageField) && r.payload.stageCode != ""
              && Some(r.payload.promptLength) == ParsedCount(tokensField)
              && Some(r.payload.clearTimeMs) == ParsedCount(clearTimeField)
              && 0 <= r.payload.promptLength <= Int32Text.MaxInt32
              && 0 <= r.payload.clearTimeMs <= Int32Text.MaxInt32
  {
    if ws != Some(Open) then Refused(SocketNotOpen)
    else
      var uid := TrimmedField(idField);
      if uid == "" then Refused(MissingId)
      else match ParsedCount(tokensField)
        case None => Refused(InvalidTokens)
        case Some(tokens) =>
          match ParsedCount(clearTimeField)
          case None => Refused(InvalidClearTime)
          case Some(clearTime) =>
            var stage := TrimmedField(stageField);
            if stage == "" then Refused(MissingStage)
            else Sent(RunLog(uid, stage, tokens, clearTime))
  }

  /** A run log can be entered through the UI as its parts are trimmed and printed. */
  predicate Enterable(log: RunLog) {
    && log.userId != [] && !Text.IsWhiteSpace(log.userId[0]) && !Text.IsWhiteSpace(log.userId[|log.userId| - 1])
    && log.stageCode != [] && !Text.IsWhiteSpace(log.stageCode[0]) && !Text.IsWhiteSpace(log.stageCode[|log.stageCode| - 1])
    && 0 <= log.promptLength <= Int32Text.MaxInt32
    && 0 <= log.clearTimeMs <= Int32Text.MaxInt32
  }

  /**
    Round trip: typing a run log's id and stage (with any white space around
    them) and its counts in decimal into the fields sends that very run log.
   */
  lemma SendRunLogRoundTrip(log: RunLog, w1: string, w2: string, w3: string, w4: string)
    requires Enterable(log)
    requires Text.AllWhiteSpace(w1) && Text.AllWhiteSpace(w2) && Text.AllWhiteSpace(w3) && Text.AllWhiteSpace(w4)
    ensures SendRunLog(Some(Open), Some(w1 + log.userId + w2), Some(Int32Text.Format(log.promptLength)),
                       Some(Int32Text.Format(log.clearTimeMs)), Some(w3 + log.stageCode + w4)) == Sent(log)
  {
    var idField, stageField := Some(w1 + log.userId + w2), Some(w3 + log.stageCode + w4);
    var tokensField, clearTimeField := Some(Int32Text.Format(log.promptLength)), Some(Int32Text.Format(log.clearTimeMs));
    Text.TrimPadded(w1, log.userId, w2);
    Text.TrimPadded(w3, log.stageCode, w4);
    CountRoundTrip(log.promptLength);
    CountRoundTrip(log.clearTimeMs);
    AllChecksPass(Some(Open), idField, tokensField, clearTimeField, stageField);
  }

  /** A count printed in decimal reads back as itself. */
  lemma CountRoundTrip(n: int)
    requires 0 <= n <= Int32Text.MaxInt32
    ensures ParsedCount(Some(Int32Text.Format(n))) == Some(n)
  {
    Int32Text.ParseFormat(n);
  }

  /** A negative count, printed in decimal, is refused. */
  lemma NegativeCountRefused(n: int)
    requires Int32Text.MinInt32 <= n < 0
    ensures ParsedCount(Some(Int32Text.Format(n))).None?
  {
    Int32Text.ParseFormat(n);
  }

  /** A count with '\0' characters after it reads as the count, as `int.TryParse` ignores them. */
  lemma CountTrailingNuls(n: int, z: string)
    requires 0 <= n <= Int32Text.MaxInt32 && Int32Text.AllNuls(z)
    ensures ParsedCount(Some(Int32Text.Format(n) + z)) == Some(n)
  {
    var f := Int32Text.Format(n);
    assert Int32Text.IsDigit(f[|f| - 1]);
    Int32Text.TryParseTrailingNuls(f, z);
    Int32Text.ParseFormat(n);
  }

  /** A count field holding a character other than number white space, a sign, a digit or '\0' is refused. */
  lemma MalformedCountRefused(text: string, i: int)
    requires 0 <= i < |text| && !Int32Text.IsNumberChar(text[i])
    ensures ParsedCount(Some(text)).None?
  {
    Int32Text.TryParseRefuses(text, i);
  }

  /** When every check passes, the payload is built from the checked values. */
  lemma AllChecksPass(ws: Option<ReadyState>, idField: Option<string>, tokensField: Option<string>,
                      clearTimeField: Option<string>, stageField: Option<string>)
    requires ws == Some(Open) && TrimmedField(idField) != "" && TrimmedField(stageField) != ""
    requires ParsedCount(tokensField).Some? && ParsedCount(clearTimeField).Some?
    ensures SendRunLog(ws, idField, tokensField, clearTimeField, stageField)
            == Sent(RunLog(TrimmedField(idField), TrimmedField(stageField),
                           ParsedCount(tokensField).value, ParsedCount(clearTimeField).value))
  {
  }

  /** Unassigned count fields read as "0", so the run log goes out with zero tokens and time. */
  lemma MissingCountFieldsSendZero(ws: Option<ReadyState>, idField: Option<string>, stageField: Option<string>)
    requires ws == Some(Open) && TrimmedField(idField) != "" && TrimmedField(stageField) != ""
    ensures SendRunLog(ws, idField, None, None, stageField) == Sent(RunLog(TrimmedField(idField), TrimmedField(stageField), 0, 0))
  {
    AllChecksPass(ws, idField, None, None, stageField);
  }

  // ---------------------------------------------------------------------
  // OnMessage
  // ---------------------------------------------------------------------

  const ClearPercentKey: string := "rank_clear_time_percent"
  const TokensPercentKey: string := "rank_tokens_percent"
  const AckKey: string := "\"ack\""

  datatype FrameKind = GameResultFrame | AckFrame | OtherFrame

  /** Frames are told apart by substring tests, game results first. */
  function Classify(data: string): (k: FrameKind)
    ensures k == GameResultFrame <==> Text.Contains(data, ClearPercentKey) || Text.Contains(data, TokensPercentKey)
    ensures k == AckFrame <==>
              !Text.Contains(data, ClearPercentKey) && !Text.Contains(data, TokensPercentKey) && Text.Contains(data, AckKey)
  {
    if Text.Contains(data, ClearPercentKey) || Text.Contains(data, TokensPercentKey) then GameResultFrame
    else if Text.Contains(data, AckKey) then AckFrame
    else OtherFrame
  }

  /** `GameResultResponse` without its two float percentiles. */
  datatype GameResult = GameResult(ack: bool, userId: Option<string>, stage: Option<string>,
                                   rankClearTime: int, rankTokens: int, totalRecords: int, receivedText: Option<string>)

  /** `ServerResponse`: an acknowledgement or a rejection. */
  datatype ServerResponse = ServerResponse(ack: bool, error: Option<string>, receivedText: Option<string>)

  /** What handling a frame does to the status display. */
  datatype Display = Unchanged | ShowGameResult(result: GameResult) | ShowText(text: string)

  function AckText(receivedText: Option<string>): string {
    "서버 ACK ✅\n메시지: " + receivedText.GetOr("")
  }

  function RejectText(reason: string): string {
    "서버 거부 ❌\n원인: " + reason
  }

  /**
    The `OnMessage` handler run on the main thread. `decodeResult` and
    `decodeResponse` are `JsonUtility.FromJson` for the two shapes; an
    exception from either is caught and leaves the display unchanged.
   */
  function OnMessage(data: string, decodeResult: string -> Decoded<GameResult>,
                     decodeResponse: string -> Decoded<ServerResponse>): (d: Display)
    // a game result is shown only when it decodes with ack set, and then nothing else is
    ensures Classify(data) == GameResultFrame ==>
              (d.ShowGameResult? <==> decodeResult(data).Decoded? && decodeResult(data).value.ack)
              && (d.ShowGameResult? ==> decodeResult(data) == Decoded(d.result))
              && !d.ShowText?
    // an acknowledgement shows its text; anything else with "ack" is a rejection
    ensures Classify(data) == AckFrame ==>
              match decodeResponse(data)
              case DecodeThrew => d == Unchanged
              case DecodedNull => d == ShowText(RejectText("unknown"))
              case Decoded(res) =>
                d == if res.ack then ShowText(AckText(res.receivedText)) else ShowText(RejectText(res.error.GetOr("unknown")))
    ensures Classify(data) == OtherFrame ==> d == ShowText("WS msg: " + data)
  {
    match Classify(data)
    case GameResultFrame =>
      (match decodeResult(data)
       case Decoded(gr) => if gr.ack then ShowGameResult(gr) else Unchanged
       case _ => Unchanged)
    case AckFrame =>
      (match decodeResponse(data)
       case DecodeThrew => Unchanged
       case DecodedNull => ShowText(RejectText("unknown"))
       case Decoded(res) =>
         if res.ack then ShowText(AckText(res.receivedText)) else ShowText(RejectText(res.error.GetOr("unknown"))))
    case OtherFrame => ShowText("WS msg: " + data)
  }

  /**
    Priority: a frame naming a percentile is a game result even when it also
    carries "ack", so it never produces the ACK or rejection text.
   */
  lemma PercentileFrameIsGameResult(prefix: string, key: string, suffix: string,
                                    decodeResult: string -> Decoded<GameResult>,
                                    decodeResponse: string -> Decoded<ServerResponse>)
    requires key == ClearPercentKey || key == TokensPercentKey
    ensures var data := prefix + key + suffix;
            Classify(data) == GameResultFrame && !OnMessage(data, decodeResult, decodeResponse).ShowText?
  {
    Text.ContainsInConcat(prefix, key, suffix);
  }

  /** A shown rejection names the server's error, or "unknown" when there is none. */
  lemma RejectionShowsReason(data: string, decodeResult: string -> Decoded<GameResult>,
                             decodeResponse: string -> Decoded<ServerResponse>)
    requires Classify(data) == AckFrame
    requires decodeResponse(data).Decoded? && !decodeResponse(data).value.ack
    ensures var reason := decodeResponse(data).value.error.GetOr("unknown");
            match OnMessage(data, decodeResult, decodeResponse)
            case ShowText(text) => Text.Contains(text, reason)
            case _ => false
  {
    var reason := decodeResponse(data).value.error.GetOr("unknown");
    Text.ContainsInConcat("서버 거부 ❌\n원인: ", reason, "");
    assert "서버 거부 ❌\n원인: " + reason + "" == RejectText(reason);
  }

  // ---------------------------------------------------------------------
  // FetchProgressAndMaybePrint
  // ---------------------------------------------------------------------

  const NullValue: string := ":null"
  const ZeroValue: string := ":0"

  /** `text.Replace(":null", ":0")`, applied before decoding. */
  function SanitizeNulls(text: string): (r: string)
    ensures !Text.Contains(text, NullValue) ==> r == text
  {
    Text.ReplaceAbsent(text, NullValue, ZeroValue);
    Text.Replace(text, NullValue, ZeroValue)
  }

  /** One step of the left-to-right rewrite at a position that does not start `:null`. */
  lemma SanitizeStep(t: string)
    requires t != [] && !(|t| >= |NullValue| && t[..|NullValue|] == NullValue)
    ensures SanitizeNulls(t) == [t[0]] + SanitizeNulls(t[1..])
  {
    if |t| < |NullValue| {
      assert SanitizeNulls(t[1..]) == t[1..];
      assert t == [t[0]] + t[1..];
    }
  }

  /** A `:null` at the start becomes `:0`, and the rewrite goes on after it. */
  lemma SanitizeHit(b: string)
    ensures SanitizeNulls(NullValue + b) == ZeroValue + SanitizeNulls(b)
  {
    var t := NullValue + b;
    assert t[..|NullValue|] == NullValue && t[|NullValue|..] == b;
  }

  /** A character other than ':' is copied by the rewrite. */
  lemma SanitizeSkip(t: string)
    requires t != [] && t[0] != ':'
    ensures SanitizeNulls(t) == [t[0]] + SanitizeNulls(t[1..])
  {
    if |t| >= |NullValue| {
      assert t[..|NullValue|][0] == t[0];
    }
    SanitizeStep(t);
  }

  /** The first `:null`, after text without a ':', becomes `:0`; the text before it is kept and the rest is rewritten. */
  lemma {:induction false} SanitizeOccurrence(a: string, b: string)
    requires ':' !in a
    ensures SanitizeNulls(a + NullValue + b) == a + ZeroValue + SanitizeNulls(b)
    decreases |a|
  {
    var t := a + NullValue + b;
    if a == [] {
      assert t == NullValue + b;
      SanitizeHit(b);
    } else {
      var tail := a[1..] + NullValue + b;
      assert t == [a[0]] + tail;
      assert a[0] in a;
      SanitizeSkip(t);
      assert t[1..] == tail;
      SanitizeOccurrence(a[1..], b);
      assert a == [a[0]] + a[1..];
    }
  }

  /** A ':' that does not start `:null`, after text without a ':', is kept, and the rest is rewritten. */
  lemma {:induction false} SanitizeColon(a: string, b: string)
    requires ':' !in a && !(|b| >= 4 && b[..4] == "null")
    ensures SanitizeNulls(a + ":" + b) == a + ":" + SanitizeNulls(b)
    decreases |a|
  {
    var t := a + ":" + b;
    if a == [] {
      assert t == [':'] + b && t[1..] == b;
      if |t| >= |NullValue| {
        assert t[..|NullValue|] == ":" + b[..4];
      }
      SanitizeStep(t);
    } else {
      var tail := a[1..] + ":" + b;
      assert t == [a[0]] + tail;
      assert a[0] in a;
      SanitizeSkip(t);
      assert t[1..] == tail;
      SanitizeColon(a[1..], b);
      assert a == [a[0]] + a[1..];
    }
  }

  predicate StartsWith(s: string, p: string) {
    |p| <= |s| && s[..|p|] == p
  }

  /** The rewrite never changes the first character: both ":null" and ":0" start with ':'. */
  lemma SanitizedHead(u: string)
    requires u != []
    ensures SanitizeNulls(u) != [] && SanitizeNulls(u)[0] == u[0]
  {
    if |u| >= |NullValue| && u[..|NullValue|] == NullValue {
      assert u[0] == u[..|NullValue|][0];
    }
  }

  /** A prefix without ':' of the sanitized text was already a prefix of the text. */
  lemma {:induction false} SanitizedPrefix(u: string, w: string)
    requires w != [] && ':' !in w
    requires StartsWith(SanitizeNulls(u), w)
    ensures StartsWith(u, w)
    decreases |u|
  {
    SanitizedHead(u);
    assert u[0] == w[0];
    // so u cannot start with ":null", and only its first character is copied
    assert |u| >= |NullValue| ==> u[..|NullValue|][0] != ':';
    var rest := SanitizeNulls(u[1..]);
    assert SanitizeNulls(u) == [u[0]] + rest;
    if |w| > 1 {
      assert StartsWith(rest, w[1..]) by {
        assert rest[..|w| - 1] == SanitizeNulls(u)[1..|w|];
      }
      SanitizedPrefix(u[1..], w[1..]);
      assert u[..|w|] == [u[0]] + u[1..][..|w| - 1];
    }
  }

  /** Putting ":0" in front of a text without ":null" makes none. */
  lemma NoNullAfterZero(rest: string)
    requires !Text.Contains(rest, NullValue)
    ensures !Text.Contains(ZeroValue + rest, NullValue)
  {
    var r := ZeroValue + rest;
    var n := |NullValue|;
    forall i | 0 <= i <= |r| ensures !Text.OccursAt(r, NullValue, i) {
      if i < 2 {
        // the occurrence would put ':' or 'n' where the '0' is
        assert r[1] == '0';
        assert i + n <= |r| ==> r[i..i + n][1 - i] == '0';
      } else if i + n <= |r| {
        assert rest[i - 2..i - 2 + n] == r[i..i + n];
        assert !Text.OccursAt(rest, NullValue, i - 2);
      }
    }
  }

  /** Putting one character in front of a text without ":null" makes none, unless ':' meets "null". */
  lemma NoNullAfterChar(c: char, rest: string)
    requires !Text.Contains(rest, NullValue)
    requires c == ':' ==> !StartsWith(rest, "null")
    ensures !Text.Contains([c] + rest, NullValue)
  {
    var r := [c] + rest;
    var n := |NullValue|;
    assert NullValue[0] == ':' && NullValue[1..] == "null";
    forall i | 0 <= i <= |r| ensures !Text.OccursAt(r, NullValue, i) {
      if i == 0 && n <= |r| {
        assert r[0..n][0] == c && r[0..n][1..] == rest[..4];
      } else if i > 0 && i + n <= |r| {
        assert rest[i - 1..i - 1 + n] == r[i..i + n];
        assert !Text.OccursAt(rest, NullValue, i - 1);
      }
    }
  }

  /** After the rewrite no ":null" is left for the decoder to see. */
  lemma {:induction false} SanitizeRemovesNulls(t: string)
    ensures !Text.Contains(SanitizeNulls(t), NullValue)
    decreases |t|
  {
    var r := SanitizeNulls(t);
    var n := |NullValue|;
    if |t| < n {
      assert r == t;
      forall i | 0 <= i <= |r| ensures !Text.OccursAt(r, NullValue, i) {
      }
    } else if t[..n] == NullValue {
      var rest := SanitizeNulls(t[n..]);
      SanitizeRemovesNulls(t[n..]);
      assert r == ZeroValue + rest;
      NoNullAfterZero(rest);
    } else {
      var rest := SanitizeNulls(t[1..]);
      SanitizeRemovesNulls(t[1..]);
      assert r == [t[0]] + rest;
      if t[0] == ':' {
        // t does not start with ":null", so its tail does not start with "null", nor does the rewritten tail
        assert t[..n][0] == t[0] && t[..n][1..] == t[1..][..4];
        assert NullValue[0] == ':' && NullValue[1..] == "null";
        assert !StartsWith(t[1..], "null");
        if StartsWith(rest, "null") {
          SanitizedPrefix(t[1..], "null");
        }
      }
      NoNullAfterChar(t[0], rest);
    }
  }

  datatype StageProgress = StageProgress(code: string, unlocked: bool, cleared: bool,
                                         promptLength: int, clearTimeMs: int, clearedAt: string)

  /** `ProgressResponse`; `stages` is None when the list is null. */
  datatype ProgressResponse = ProgressResponse(userId: string, stages: Option<seq<StageProgress>>)

  /** The outcome of a `UnityWebRequest`: the body on success, the error text otherwise. */
  datatype HttpResult = HttpOk(body: string) | HttpFailed(message: string)

  /** The codes of the unlocked stages, in response order. */
  function UnlockedCodes(stages: seq<StageProgress>): (codes: seq<string>)
    ensures |codes| <= |stages|
    ensures forall c :: c in codes <==> exists i :: 0 <= i < |stages| && stages[i].unlocked && stages[i].code == c
  {
    if stages == [] then []
    else
      var front := UnlockedCodes(stages[..|stages| - 1]);
      var last := stages[|stages| - 1];
      var codes := if last.unlocked then front + [last.code] else front;
      assert forall i :: 0 <= i < |stages| - 1 ==> stages[i] == stages[..|stages| - 1][i];
      codes
  }

  /** Order is kept: the unlocked codes of a concatenation are those of its parts, concatenated. */
  lemma {:induction false} UnlockedCodesAppend(a: seq<StageProgress>, b: seq<StageProgress>)
    ensures UnlockedCodes(a + b) == UnlockedCodes(a) + UnlockedCodes(b)
    decreases |b|
  {
    if b == [] {
      assert a + b == a;
    } else {
      var ab := a + b;
      assert ab[..|ab| - 1] == a + b[..|b| - 1];
      assert ab[|ab| - 1] == b[|b| - 1];
      UnlockedCodesAppend(a, b[..|b| - 1]);
    }
  }

  const ParseFailedStatus: string := "⚠ 진행 정보 파싱 실패"
  const NoneUnlocked: string := "(없음)"

  /** The status listing the unlocked stages, joined with ", ", or "(없음)" when there are none. */
  function UnlockedStatus(codes: seq<string>): (s: string)
    ensures |codes| == 0 ==> s == "🔓 해금된 스테이지: " + NoneUnlocked
    ensures |codes| > 0 ==> s == "🔓 해금된 스테이지: " + Text.Join(", ", codes)
    ensures forall c :: c in codes ==> Text.Contains(s, c)
  {
    var listed := if |codes| > 0 then Text.Join(", ", codes) else NoneUnlocked;
    Text.JoinContains(", ", codes);
    forall c | c in codes ensures Text.Contains("🔓 해금된 스테이지: " + listed, c) {
      Text.ContainsRight("🔓 해금된 스테이지: ", listed, c);
    }
    "🔓 해금된 스테이지: " + listed
  }

  /**
    The status lists the unlocked codes in response order: for a response
    split in two parts that both unlock something, the first part's codes
    come first, then ", ", then the second part's.
   */
  lemma UnlockedStatusInResponseOrder(a: seq<StageProgress>, b: seq<StageProgress>)
    requires UnlockedCodes(a) != [] && UnlockedCodes(b) != []
    ensures UnlockedStatus(UnlockedCodes(a + b))
            == UnlockedStatus(UnlockedCodes(a)) + ", " + Text.Join(", ", UnlockedCodes(b))
  {
    UnlockedCodesAppend(a, b);
    Text.JoinAppend(", ", UnlockedCodes(a), UnlockedCodes(b));
  }

  /** Two unlocked stages "A1" and "B2", in that order, show as "A1, B2". */
  lemma TwoUnlockedStages(a: StageProgress, b: StageProgress)
    requires a.code == "A1" && a.unlocked && b.code == "B2" && b.unlocked
    ensures UnlockedStatus(UnlockedCodes([a, b])) == "🔓 해금된 스테이지: A1, B2"
  {
    UnlockedCodesAppend([a], [b]);
    assert [a] + [b] == [a, b];
    assert UnlockedCodes([a]) == ["A1"] by {
      assert [a][..0] == [];
    }
    assert UnlockedCodes([b]) == ["B2"] by {
      assert [b][..0] == [];
    }
    Text.JoinAppend(", ", ["A1"], ["B2"]);
    assert ["A1"] + ["B2"] == ["A1", "B2"];
  }

  /**
    The two callbacks of `FetchProgressAndMaybePrint(uid, showOutput)`:
    Some(status) when it sets the status, None when it stays silent. The
    body is rewritten before decoding; a decoder exception aborts the
    coroutine without a status.
   */
  function OnProgress(result: HttpResult, decode: string -> Decoded<ProgressResponse>, showOutput: bool): (status: Option<string>)
    ensures !showOutput ==> status.None?
    ensures result.HttpFailed? && showOutput ==> status == Some("❌ 진행 조회 실패: " + result.message)
    ensures result.HttpOk? && showOutput ==>
              var decoded := decode(SanitizeNulls(result.body));
              && (decoded.DecodeThrew? ==> status.None?)
              && (decoded.DecodedNull? || (decoded.Decoded? && decoded.value.stages.None?) <==> status == Some(ParseFailedStatus))
              && (decoded.Decoded? && decoded.value.stages.Some? ==>
                    status == Some(UnlockedStatus(UnlockedCodes(decoded.value.stages.value))))
  {
    match result
    case HttpFailed(message) => if showOutput then Some("❌ 진행 조회 실패: " + message) else None
    case HttpOk(body) =>
      match decode(SanitizeNulls(body))
      case DecodeThrew => None
      case DecodedNull => if showOutput then Some(ParseFailedStatus) else None
      case Decoded(resp) =>
        match resp.stages
        case None => if showOutput then Some(ParseFailedStatus) else None
        case Some(stages) =>
          var codes := UnlockedCodes(stages);
          assert UnlockedStatus(codes) != ParseFailedStatus by {
            assert UnlockedStatus(codes)[0] != ParseFailedStatus[0];
          }
          if showOutput then Some(UnlockedStatus(codes)) else None
  }

  // ---------------------------------------------------------------------
  // Registration
  // ---------------------------------------------------------------------

  /** What a button handler or callback asks of the outside world, in order. */
  datatype Effect =
    | SetStatus(text: string)
    | PostUser(userId: string)                      // POST {restBaseUrl}/users with {"user_id": userId}
    | SaveUserId(userId: string)                    // PlayerPrefs "user_id"
    | FetchProgress(userId: string, showOutput: bool)

  /** Every progress fetch in `effects` comes after `uid` was saved. */
  predicate SavedBeforeFetch(effects: seq<Effect>, uid: string) {
    forall j :: 0 <= j < |effects| && effects[j].FetchProgress? ==>
      exists i :: 0 <= i < j && effects[i] == SaveUserId(uid)
  }

  /** When nothing up to a save of `uid` is a fetch, every fetch follows that save. */
  lemma SaveComesFirst(effects: seq<Effect>, uid: string, k: nat)
    requires k < |effects| && effects[k] == SaveUserId(uid)
    requires forall j :: 0 <= j < k ==> !effects[j].FetchProgress?
    ensures SavedBeforeFetch(effects, uid)
  {
    forall j | 0 <= j < |effects| && effects[j].FetchProgress?
      ensures exists i :: 0 <= i < j && effects[i] == SaveUserId(uid)
    {
      assert k < j;
    }
  }

  /** `OnClickRegister()`: warn on an empty id, otherwise post the trimmed id. */
  function OnClickRegister(idField: Option<string>): (effects: seq<Effect>)
    ensures TrimmedField(idField) == "" ==> effects == [SetStatus(EnterIdStatus)]
    ensures forall e :: e in effects && e.PostUser? ==> e.userId == TrimmedField(idField) && e.userId != ""
    ensures TrimmedField(idField) != "" ==> PostUser(TrimmedField(idField)) in effects
    ensures forall e :: e in effects ==> !e.SaveUserId? && !e.FetchProgress?
  {
    var uid := TrimmedField(idField);
    if uid == "" then [SetStatus(EnterIdStatus)]
    else [SetStatus("⏳ Registering..."), PostUser(uid)]
  }

  /** The two callbacks of the registration request for `uid`. */
  function OnRegisterResponse(uid: string, result: HttpResult): (effects: seq<Effect>)
    ensures result.HttpOk? <==> FetchProgress(uid, true) in effects
    ensures SavedBeforeFetch(effects, uid)
    ensures result.HttpFailed? ==> forall e :: e in effects ==> e.SetStatus?
  {
    match result
    case HttpOk(_) =>
      var effects := [SaveUserId(uid), SetStatus("✅ ID 등록 완료: " + uid), FetchProgress(uid, true)];
      SaveComesFirst(effects, uid, 0);
      effects
    case HttpFailed(message) => [SetStatus("❌ ID 등록 실패: " + message)]
  }

  /**
    `OnClickRefreshProgress()`: the same id check, then a fetch that prints.
    The click warns exactly when the trimmed id is empty; it never registers
    or saves, and its one fetch is of the trimmed id, with output.
   */
  function OnClickRefreshProgress(idField: Option<string>): (effects: seq<Effect>)
    ensures effects == [SetStatus(EnterIdStatus)] <==> TrimmedField(idField) == ""
    ensures |effects| == 1
    ensures forall e :: e in effects ==> !e.PostUser? && !e.SaveUserId?
    ensures forall e :: e in effects && e.FetchProgress? ==>
              e.userId == TrimmedField(idField) && e.userId != "" && e.showOutput
  {
    var uid := TrimmedField(idField);
    if uid == "" then [SetStatus(EnterIdStatus)] else [FetchProgress(uid, true)]
  }

  /**
    Refreshing checks the id as registering does: both warn alike on the same
    field, and the id refreshing fetches is the id registering posts.
   */
  lemma RefreshChecksLikeRegister(idField: Option<string>)
    ensures OnClickRefreshProgress(idField) == [SetStatus(EnterIdStatus)]
            <==> OnClickRegister(idField) == [SetStatus(EnterIdStatus)]
    ensures forall e :: e in OnClickRefreshProgress(idField) && e.FetchProgress? ==>
              PostUser(e.userId) in OnClickRegister(idField)
  {
    if TrimmedField(idField) != "" {
      assert OnClickRegister(idField)[1] == PostUser(TrimmedField(idField));
    }
  }

  /** Prepending effects that fetch nothing keeps every fetch after the save. */
  lemma SavedBeforeFetchPrepend(a: seq<Effect>, b: seq<Effect>, uid: string)
    requires forall e :: e in a ==> !e.FetchProgress?
    requires SavedBeforeFetch(b, uid)
    ensures SavedBeforeFetch(a + b, uid)
  {
    var ab := a + b;
    forall j | 0 <= j < |ab| && ab[j].FetchProgress?
      ensures exists i :: 0 <= i < j && ab[i] == SaveUserId(uid)
    {
      assert ab[j] !in a;
      assert j >= |a| && ab[j] == b[j - |a|];
      var i :| 0 <= i < j - |a| && b[i] == SaveUserId(uid);
      assert ab[|a| + i] == b[i];
    }
  }

  /**
    The whole registration flow: a click, then the response if a request was
    made. Without a non-empty id nothing but a status is produced; a progress
    fetch happens only after a successful registration, and after the save.
   */
  function RegisterFlow(idField: Option<string>, response: HttpResult): seq<Effect> {
    var click := OnClickRegister(idField);
    if TrimmedField(idField) == "" then click else click + OnRegisterResponse(TrimmedField(idField), response)
  }

  lemma RegisterFlowOrder(idField: Option<string>, response: HttpResult)
    ensures TrimmedField(idField) == "" ==> forall e :: e in RegisterFlow(idField, response) ==> e.SetStatus?
    ensures SavedBeforeFetch(RegisterFlow(idField, response), TrimmedField(idField))
  {
    var uid := TrimmedField(idField);
    if uid != "" {
      SavedBeforeFetchPrepend(OnClickRegister(idField), OnRegisterResponse(uid, response), uid);
    }
  }
}

=== FILE: generator.dfy ===
/**
  The AI server's fixed action generator: whatever the prompt says, the
  answer is to walk forward at speed 5, and only the prompt's length is
  taken from the request.
 */
module Generator {
  import opened Wrappers

  /** The server's `PromptRequest`; `stageId` is optional. */
  datatype PromptRequest = PromptRequest(userId: string, stageId: Option<string>, prompt: string)

  /** The server's `ActionResponse`; `param` and `error` are optional. */
  datatype ActionResponse = ActionResponse(actionType: string, param: Option<map<string, string>>,
                                           promptLen: int, error: Option<string>)

  const WalkForward: string := "WalkForward"

  /** `generate_action(req)`; `promptLen` counts the prompt's code points, as `len` does. */
  function GenerateAction(req: PromptRequest): (r: ActionResponse)
    ensures r.error.None? && r.actionType == WalkForward
    ensures r.param == Some(map["speed" := "5"])
    ensures r.promptLen == |req.prompt|
  {
    ActionResponse(WalkForward, Some(map["speed" := "5"]), |req.prompt|, None)
  }

  /**
    The answer depends on nothing but the prompt's length: who asks, for
    which stage and with which words makes no difference.
   */
  lemma AnswerDependsOnlyOnLength(a: PromptRequest, b: PromptRequest)
    ensures GenerateAction(a) == GenerateAction(b) <==> |a.prompt| == |b.prompt|
  {
  }
}

=== FILE: int32_text.dfy ===
/**
  `int.TryParse(string, out int)` and `int.ToString()` of the .NET runtime,
  as the game client uses them to read the token count and the clear time
  typed into the UI. Parsing follows `NumberStyles.Integer`: optional white
  space, an optional sign, one or more ASCII digits, optional white space,
  and a value inside the 32-bit signed range.
 */
module Int32Text {
  import opened Wrappers

  const MinInt32: int := -0x8000_0000
  const MaxInt32: int := 0x7FFF_FFFF

  predicate IsDigit(c: char) {
    '0' <= c <= '9'
  }

  predicate AllDigits(s: string) {
    forall i :: 0 <= i < |s| ==> IsDigit(s[i])
  }

  /** White space `NumberStyles.Integer` allows around a number: U+0009 to U+000D and U+0020. */
  predicate IsNumberWhite(c: char) {
    c == ' ' || ('\t' <= c <= '\r')
  }

  predicate AllNumberWhite(s: string) {
    forall i :: 0 <= i < |s| ==> IsNumberWhite(s[i])
  }

  /** The value of a run of decimal digits, most significant first. */
  function DigitsValue(ds: string): nat
    requires AllDigits(ds)
  {
    if ds == [] then 0
    else DigitsValue(ds[..|ds| - 1]) * 10 + (ds[|ds| - 1] as int - '0' as int)
  }

  function StripLeading(s: string): string {
    if s != [] && IsNumberWhite(s[0]) then StripLeading(s[1..]) else s
  }

  function StripTrailing(s: string): string {
    if s != [] && IsNumberWhite(s[|s| - 1]) then StripTrailing(s[..|s| - 1]) else s
  }

  /** A sign or a digit: what an optionally signed run of digits is made of. */
  predicate IsSignOrDigit(c: char) {
    c == '+' || c == '-' || IsDigit(c)
  }

  /** A character that can occur in a text `int.TryParse` accepts. */
  predicate IsNumberChar(c: char) {
    IsNumberWhite(c) || IsSignOrDigit(c) || c == '\0'
  }

  predicate AllNuls(s: string) {
    forall i :: 0 <= i < |s| ==> s[i] == '\0'
  }

  /**
    `s` without its trailing run of '\0' characters: after the number and its
    trailing white space, `int.TryParse` ignores whatever is left when that is
    '\0' characters only.
   */
  function StripTrailingNuls(s: string): string {
    if s != [] && s[|s| - 1] == '\0' then StripTrailingNuls(s[..|s| - 1]) else s
  }

  /**
    The sign and digit part of a number: `-` and `+` are consumed, a missing
    sign means positive. Only a sign followed by digits, or digits alone, is
    read, and only a leading `-` gives a negative value.
   */
  function SignedValue(t: string): (r: Option<int>)
    ensures r.Some? ==> t != [] && IsSignOrDigit(t[0]) && forall i :: 1 <= i < |t| ==> IsDigit(t[i])
    ensures r.Some? && r.value < 0 ==> t[0] == '-'
  {
    var negative := t != [] && t[0] == '-';
    var digits := if t != [] && (t[0] == '-' || t[0] == '+') then t[1..] else t;
    if digits == [] || !AllDigits(digits) then None
    else
      var magnitude: int := DigitsValue(digits);
      Some(if negative then -magnitude else magnitude)
  }

  /**
    `int.TryParse(s, out v)`: Some(v) when it returns true. A value outside
    the 32-bit range is a failure, as is anything that is not an optionally
    signed run of digits padded with white space and followed by any number
    of '\0' characters.
   */
  function TryParse(s: string): (r: Option<int>)
    ensures r.Some? ==> MinInt32 <= r.value <= MaxInt32
    ensures AllNumberWhite(s) ==> r.None?
  {
    var t := StripTrailing(StripLeading(StripTrailingNuls(s)));
    StripAllWhite(s);
    match SignedValue(t)
    case Some(v) => if MinInt32 <= v <= MaxInt32 then Some(v) else None
    case None => None
  }

  /** `StripLeading(s)` is a suffix of `s`, and what it drops is number white space. */
  lemma {:induction false} StripLeadingSplit(s: string)
    ensures var t := StripLeading(s);
            |t| <= |s| && t == s[|s| - |t|..] && AllNumberWhite(s[..|s| - |t|])
    decreases |s|
  {
    if s != [] && IsNumberWhite(s[0]) {
      StripLeadingSplit(s[1..]);
      var t := StripLeading(s);
      var m := |s| - |t|;
      assert s[1..][|s| - 1 - |t|..] == s[m..];
      forall k | 0 <= k < m ensures IsNumberWhite(s[k]) {
        if k > 0 {
          assert s[k] == s[1..][..m - 1][k - 1];
        }
      }
    }
  }

  /** `StripTrailing(s)` is a prefix of `s`, and what it drops is number white space. */
  lemma {:induction false} StripTrailingSplit(s: string)
    ensures var t := StripTrailing(s);
            |t| <= |s| && t == s[..|t|] && AllNumberWhite(s[|t|..])
    decreases |s|
  {
    if s != [] && IsNumberWhite(s[|s| - 1]) {
      var front := s[..|s| - 1];
      StripTrailingSplit(front);
      var t := StripTrailing(s);
      assert front[..|t|] == s[..|t|];
      forall k | |t| <= k < |s| ensures IsNumberWhite(s[k]) {
        if k < |s| - 1 {
          assert s[k] == front[|t|..][k - |t|];
        }
      }
    }
  }

  /** `StripTrailingNuls(s)` is a prefix of `s`, and what it drops is '\0' characters. */
  lemma {:induction false} StripTrailingNulsSplit(s: string)
    ensures var t := StripTrailingNuls(s);
            |t| <= |s| && t == s[..|t|] && AllNuls(s[|t|..])
    decreases |s|
  {
    if s != [] && s[|s| - 1] == '\0' {
      var front := s[..|s| - 1];
      StripTrailingNulsSplit(front);
      var t := StripTrailingNuls(s);
      assert front[..|t|] == s[..|t|];
      forall k | |t| <= k < |s| ensures s[k] == '\0' {
        if k < |s| - 1 {
          assert s[k] == front[|t|..][k - |t|];
        }
      }
    }
  }

  /** '\0' characters after a text that does not end in one are all dropped. */
  lemma {:induction false} StripTrailingNulsPadded(x: string, z: string)
    requires x == [] || x[|x| - 1] != '\0'
    requires AllNuls(z)
    ensures StripTrailingNuls(x + z) == x
    decreases |z|
  {
    if z == [] {
      assert x + z == x;
    } else {
      var s := x + z;
      assert s[|s| - 1] == z[|z| - 1];
      assert s[..|s| - 1] == x + z[..|z| - 1];
      StripTrailingNulsPadded(x, z[..|z| - 1]);
    }
  }

  /** Trailing '\0' characters do not change what `int.TryParse` reads. */
  lemma TryParseTrailingNuls(x: string, z: string)
    requires x == [] || x[|x| - 1] != '\0'
    requires AllNuls(z)
    ensures TryParse(x + z) == TryParse(x)
  {
    StripTrailingNulsPadded(x, z);
    StripTrailingNulsPadded(x, []);
    assert x + [] == x;
  }

  /** A '\0' is ignored only at the very end: "5\0 " does not parse, while "5 \0" does. */
  lemma NulThenWhiteRefused()
    ensures TryParse("5\0 ").None?
    ensures TryParse("5 \0") == Some(5)
  {
    var s := "5\0 ";
    assert StripTrailingNuls(s) == s;
    assert StripLeading(s) == s;
    assert s[..|s| - 1] == "5\0";
    assert StripTrailing(s) == "5\0";
    ParseFormatted([], 5, " ");
    assert Format(5) == "5";
    TryParseTrailingNuls([] + Format(5) + " ", "\0");
    assert [] + "5" + " " + "\0" == "5 \0";
  }

  /**
    What `int.TryParse` accepts is number white space, an optionally signed
    run of digits, number white space and '\0' characters, and the value is
    that of the digits.
   */
  lemma TryParseSound(s: string)
    requires TryParse(s).Some?
    ensures exists k, j, m :: 0 <= k <= j <= m <= |s| && AllNumberWhite(s[..k]) && AllNumberWhite(s[j..m])
                              && AllNuls(s[m..]) && SignedValue(s[k..j]) == TryParse(s)
  {
    var v := StripTrailingNuls(s);
    StripTrailingNulsSplit(s);
    var u := StripLeading(v);
    StripLeadingSplit(v);
    var t := StripTrailing(u);
    StripTrailingSplit(u);
    var k := |v| - |u|;
    var j := k + |t|;
    var m := |v|;
    assert s[..k] == v[..k];
    assert s[k..j] == t;
    assert s[j..m] == u[|t|..];
  }

  /** Every character of a text `int.TryParse` accepts is number white space, a sign, a digit or '\0'. */
  lemma TryParseChars(s: string)
    ensures TryParse(s).Some? ==> forall i :: 0 <= i < |s| ==> IsNumberChar(s[i])
  {
    if TryParse(s).Some? {
      TryParseSound(s);
      var k, j, m :| 0 <= k <= j <= m <= |s| && AllNumberWhite(s[..k]) && AllNumberWhite(s[j..m])
                     && AllNuls(s[m..]) && SignedValue(s[k..j]) == TryParse(s);
      forall i | 0 <= i < |s| ensures IsNumberChar(s[i]) {
        if i < k {
          assert s[..k][i] == s[i];
        } else if i >= m {
          assert s[m..][i - m] == s[i];
        } else if i >= j {
          assert s[j..m][i - j] == s[i];
        } else {
          assert s[k..j][i - k] == s[i];
        }
      }
    }
  }

  /** A character other than number white space, a sign, a digit or '\0' makes `int.TryParse` fail. */
  lemma TryParseRefuses(s: string, i: int)
    requires 0 <= i < |s| && !IsNumberChar(s[i])
    ensures TryParse(s).None?
  {
    TryParseChars(s);
  }

  lemma {:induction false} StripAllWhite(s: string)
    ensures AllNumberWhite(s) ==> StripLeading(s) == []
    decreases |s|
  {
    if s != [] && AllNumberWhite(s) {
      StripAllWhite(s[1..]);
    }
  }

  /** The decimal digits of `n`, without leading zeros. */
  function Digits(n: nat): (r: string)
    ensures r != [] && AllDigits(r)
    ensures DigitsValue(r) == n
  {
    var d := ['0' + (n % 10) as char];
    if n < 10 then d
    else
      var r := Digits(n / 10) + d;
      assert r[..|r| - 1] == Digits(n / 10);
      r
  }

  /** `int.ToString()` with the invariant culture's minus sign. */
  function Format(n: int): (r: string)
    ensures r != [] && forall i :: 1 <= i < |r| ==> IsDigit(r[i])
    ensures r[0] == '-' <==> n < 0
    ensures n >= 0 ==> AllDigits(r)
  {
    if n < 0 then "-" + Digits(-n) else Digits(n)
  }

  /**
    Reading back what `Format` wrote, with any white space around it, gives
    the number: formatting and parsing are inverse on the 32-bit range.
   */
  lemma {:induction false} ParseFormatted(w1: string, n: int, w2: string)
    requires MinInt32 <= n <= MaxInt32
    requires AllNumberWhite(w1) && AllNumberWhite(w2)
    ensures TryParse(w1 + Format(n) + w2) == Some(n)
  {
    var f := Format(n);
    assert f != [] && !IsNumberWhite(f[0]) && !IsNumberWhite(f[|f| - 1]);
    var x := w1 + f + w2;
    assert x[|x| - 1] != '\0' by {
      if w2 == [] {
        assert x[|x| - 1] == f[|f| - 1];
      } else {
        assert x[|x| - 1] == w2[|w2| - 1];
      }
    }
    StripTrailingNulsPadded(x, []);
    assert x + [] == x;
    StripLeadingPadded(w1, f + w2);
    assert w1 + f + w2 == w1 + (f + w2);
    assert StripLeading(f + w2) == f + w2 by {
      assert (f + w2)[0] == f[0];
    }
    StripTrailingPadded(f, w2);
    if n < 0 {
      assert f[1..] == Digits(-n);
    }
  }

  lemma {:induction false} StripLeadingPadded(w: string, t: string)
    requires AllNumberWhite(w)
    ensures StripLeading(w + t) == StripLeading(t)
    decreases |w|
  {
    if w == [] {
      assert w + t == t;
    } else {
      assert (w + t)[0] == w[0];
      assert (w + t)[1..] == w[1..] + t;
      StripLeadingPadded(w[1..], t);
    }
  }

  lemma {:induction false} StripTrailingPadded(t: string, w: string)
    requires AllNumberWhite(w)
    requires t != [] && !IsNumberWhite(t[|t| - 1])
    ensures StripTrailing(t + w) == t
    decreases |w|
  {
    if w == [] {
      assert t + w == t;
    } else {
      var s := t + w;
      assert s[|s| - 1] == w[|w| - 1];
      assert s[..|s| - 1] == t + w[..|w| - 1];
      StripTrailingPadded(t, w[..|w| - 1]);
    }
  }

  /** The sign and digit part of a formatted number reads back as the number, whatever its size. */
  lemma SignedFormat(n: int)
    ensures SignedValue(Format(n)) == Some(n)
  {
    if n < 0 {
      assert Format(n)[1..] == Digits(-n);
    }
  }

  /** A run of digits without a sign is positive. */
  lemma SignedDigits(ds: string)
    requires ds != [] && AllDigits(ds)
    ensures SignedValue(ds) == Some(DigitsValue(ds))
  {
    assert IsDigit(ds[0]);
  }

  /** Formatting and parsing without padding. */
  lemma ParseFormat(n: int)
    requires MinInt32 <= n <= MaxInt32
    ensures TryParse(Format(n)) == Some(n)
  {
    ParseFormatted([], n, []);
    assert [] + Format(n) + [] == Format(n);
  }
}

=== FILE: main_queue.dfy ===
/**
  The main-thread dispatcher of the DB client: `RunOnMain` puts an action at
  the tail of a FIFO queue from any thread, and `Update` (called once per
  frame on the main thread) drains the queue, running every action in
  enqueue order and isolating the exceptions they throw. The lock around the
  queue only matters under concurrency; here the queue is a plain sequence.
 */
module MainQueue {
  import opened Wrappers

  /** What running one queued action did: it returned, or it threw (the exception's text). */
  datatype Outcome = Completed | Threw(exception: string)

  /** `_mainQ`: the actions waiting for the main thread, head first. */
  datatype Dispatcher<A> = Dispatcher(queue: seq<A>)

  /** The text `Update` logs for an exception an action threw. */
  function ErrorLine(exception: string): string {
    "[MainQ] " + exception
  }

  /** `RunOnMain(a)`: a null action is ignored, any other goes to the tail. */
  function RunOnMain<A>(d: Dispatcher<A>, a: Option<A>): (d': Dispatcher<A>)
    ensures a.None? ==> d' == d
    ensures a.Some? ==> |d'.queue| == |d.queue| + 1 && d'.queue[..|d.queue|] == d.queue && d'.queue[|d.queue|..] == [a.value]
  {
    match a
    case None => d
    case Some(action) => Dispatcher(d.queue + [action])
  }

  /** The non-null actions of `xs`, in order. */
  function NonNull<A>(xs: seq<Option<A>>): seq<A> {
    if xs == [] then []
    else
      var rest := NonNull(xs[..|xs| - 1]);
      match xs[|xs| - 1]
      case None => rest
      case Some(a) => rest + [a]
  }

  /** Calling `RunOnMain` once for each element of `xs`, in order. */
  function RunAllOnMain<A>(d: Dispatcher<A>, xs: seq<Option<A>>): Dispatcher<A> {
    if xs == [] then d else RunOnMain(RunAllOnMain(d, xs[..|xs| - 1]), xs[|xs| - 1])
  }

  /**
    FIFO: after any sequence of `RunOnMain` calls the queue holds the earlier
    contents followed by the non-null actions in the order they were given.
   */
  lemma {:induction false} RunAllOnMainQueue<A>(d: Dispatcher<A>, xs: seq<Option<A>>)
    ensures RunAllOnMain(d, xs).queue == d.queue + NonNull(xs)
  {
    if xs != [] {
      RunAllOnMainQueue(d, xs[..|xs| - 1]);
    }
  }

  /** The log lines written while running `actions` in order: one per exception, in order. */
  function ErrorLog<A>(actions: seq<A>, run: A -> Outcome): seq<string> {
    if actions == [] then []
    else
      var prev := ErrorLog(actions[..|actions| - 1], run);
      match run(actions[|actions| - 1])
      case Completed => prev
      case Threw(e) => prev + [ErrorLine(e)]
  }

  /** How many of `actions` throw when run. */
  function CountThrowing<A>(actions: seq<A>, run: A -> Outcome): nat {
    if actions == [] then 0
    else CountThrowing(actions[..|actions| - 1], run) + (if run(actions[|actions| - 1]).Threw? then 1 else 0)
  }

  /** One log line per throwing action and nothing else. */
  lemma {:induction false} ErrorLogLength<A>(actions: seq<A>, run: A -> Outcome)
    ensures |ErrorLog(actions, run)| == CountThrowing(actions, run)
  {
    if actions != [] {
      ErrorLogLength(actions[..|actions| - 1], run);
    }
  }

  /**
    `Update()`: dequeue and run actions until the queue is empty. Every
    queued action runs, in enqueue order, whether or not an earlier one
    threw; each exception is caught and logged. `run` gives each action's
    outcome; what an action does to the rest of the program is not modelled.
   */
  method Update<A>(d: Dispatcher<A>, run: A -> Outcome) returns (d': Dispatcher<A>, ran: seq<A>, log: seq<string>)
    ensures d'.queue == []
    ensures ran == d.queue
    ensures log == ErrorLog(d.queue, run)
  {
    var q := d.queue;
    ran := [];
    log := [];
    while true
      invariant ran + q == d.queue
      invariant log == ErrorLog(ran, run)
      decreases |q|
    {
      var next: Option<A> := None;
      if |q| > 0 {
        next := Some(q[0]);
        q := q[1..];
      }
      if next.None? {
        break;
      }
      var a := next.value;
      match run(a) {
        case Completed =>
        case Threw(e) => log := log + [ErrorLine(e)];
      }
      assert (ran + [a])[..|ran|] == ran;
      ran := ran + [a];
    }
    d' := Dispatcher(q);
  }
}

=== FILE: schemas.dfy ===
/**
  A decoded JSON value, as far as the run-log schemas look at it: a request
  body is an object from keys to values. The servers validate bodies with
  pydantic v2 in its default lax mode, where an `int` field also takes a
  JSON string holding an integer and a JSON boolean; a `str` field takes
  only a JSON string.
 */
module Json {
  import opened Wrappers
  import Text
  import Int32Text

  datatype Value = JString(str: string) | JInt(num: int) | JBool(truth: bool) | JNull | JOther

  type Object = map<string, Value>

  /** The longest integer text that is converted (Python's default `int_max_str_digits`). */
  const MaxIntTextLength: nat := 4300

  /** The position of the first '.' in `t`, or `|t|` when there is none. */
  function FirstDot(t: string): (i: nat)
    ensures i <= |t|
    ensures forall k :: 0 <= k < i ==> t[k] != '.'
    ensures i < |t| ==> t[i] == '.'
  {
    if t == [] || t[0] == '.' then 0 else 1 + FirstDot(t[1..])
  }

  /** `t` without a fraction made of zeros only ("12.00" gives "12"); None when there is no such fraction. */
  function DecimalZerosStripped(t: string): (r: Option<string>)
    ensures r.Some? ==> |r.value| < |t| && r.value == t[..|r.value|] && t[|r.value|] == '.'
    ensures r.Some? ==> forall k :: |r.value| < k < |t| ==> t[k] == '0'
  {
    var i := FirstDot(t);
    if i < |t| && forall k :: i < k < |t| ==> t[k] == '0' then Some(t[..i]) else None
  }

  /**
    A string read as an integer: white space at both ends is dropped; the
    rest must be an optionally signed run of ASCII digits, possibly followed
    by a '.' and zeros only, and at most 4300 characters long.
   */
  function IntText(s: string): (n: Option<int>)
    ensures Text.AllWhiteSpace(s) ==> n.None?
    ensures |Text.Trim(s)| > MaxIntTextLength ==> n.None?
  {
    var t := Text.Trim(s);
    if |t| > MaxIntTextLength then None
    else match Int32Text.SignedValue(t)
      case Some(v) => Some(v)
      case None =>
        match DecimalZerosStripped(t)
        case Some(u) => Int32Text.SignedValue(u)
        case None => None
  }

  /** An integer printed in decimal, with white space around it, reads back as that integer. */
  lemma IntTextFormatted(w1: string, n: int, w2: string)
    requires Text.AllWhiteSpace(w1) && Text.AllWhiteSpace(w2)
    requires |Int32Text.Format(n)| <= MaxIntTextLength
    ensures IntText(w1 + Int32Text.Format(n) + w2) == Some(n)
  {
    var f := Int32Text.Format(n);
    assert !Text.IsWhiteSpace(f[0]) && !Text.IsWhiteSpace(f[|f| - 1]);
    Text.TrimPadded(w1, f, w2);
    Int32Text.SignedFormat(n);
  }

  /** A non-empty run of digits reads as its decimal value. */
  lemma IntTextDigits(ds: string)
    requires ds != [] && Int32Text.AllDigits(ds) && |ds| <= MaxIntTextLength
    ensures IntText(ds) == Some(Int32Text.DigitsValue(ds))
  {
    assert !Text.IsWhiteSpace(ds[0]) && !Text.IsWhiteSpace(ds[|ds| - 1]);
    Text.TrimPadded([], ds, []);
    assert [] + ds + [] == ds;
    Int32Text.SignedDigits(ds);
  }

  /**
    `t` is an integer text for `n`: an optionally signed run of digits with
    value `n`, possibly followed by a '.' and zeros only.
   */
  predicate IntShape(t: string, n: int) {
    || Int32Text.SignedValue(t) == Some(n)
    || exists i :: 0 <= i < |t| && t[i] == '.' && (forall k :: i < k < |t| ==> t[k] == '0')
                   && Int32Text.SignedValue(t[..i]) == Some(n)
  }

  /**
    What `IntText` reads is white space, an integer text of at most 4300
    characters, and white space; the result is the value of that text.
   */
  lemma IntTextSound(s: string)
    requires IntText(s).Some?
    ensures exists k, j :: 0 <= k <= j <= |s| && j - k <= MaxIntTextLength
                           && Text.AllWhiteSpace(s[..k]) && Text.AllWhiteSpace(s[j..])
                           && IntShape(s[k..j], IntText(s).value)
  {
    var t := Text.Trim(s);
    var k := Text.LeadingWhite(s);
    var j := k + |t|;
    assert s[k..j] == t;
    assert Text.AllWhiteSpace(s[..k]) by {
      forall i | 0 <= i < k ensures Text.IsWhiteSpace(s[..k][i]) {
        assert s[..k][i] == s[i];
      }
    }
    assert Text.AllWhiteSpace(s[j..]) by {
      forall i | 0 <= i < |s| - j ensures Text.IsWhiteSpace(s[j..][i]) {
        assert s[j..][i] == s[j + i];
      }
    }
    if Int32Text.SignedValue(t).None? {
      var u := DecimalZerosStripped(t).value;
      assert t[..|u|] == u;
    }
  }

  /** A text without white space at its ends that neither reading accepts is no integer. */
  lemma TrimmedNoInteger(t: string)
    requires t != [] && !Text.IsWhiteSpace(t[0]) && !Text.IsWhiteSpace(t[|t| - 1])
    requires Int32Text.SignedValue(t).None? && DecimalZerosStripped(t).None?
    ensures IntText(t).None?
  {
    Text.TrimPadded([], t, []);
    assert [] + t + [] == t;
  }

  /** Digits split by a space, and a fraction that is not zero, are no integers. */
  lemma SplitOrFractionIsNoInteger()
    ensures IntText("1 2").None?
    ensures IntText("1.5").None?
  {
    var split, fraction := "1 2", "1.5";
    assert !Int32Text.IsDigit(split[1]);
    assert Int32Text.SignedValue(split).None?;
    assert FirstDot(split[1..][1..]) == 1;
    assert FirstDot(split) == 3;
    TrimmedNoInteger(split);
    assert !Int32Text.IsDigit(fraction[1]);
    assert Int32Text.SignedValue(fraction).None?;
    assert FirstDot(fraction) == 1 && fraction[2] != '0';
    TrimmedNoInteger(fraction);
  }

  /** A character that can occur in a string `IntText` reads: white space, a sign, a digit or '.'. */
  predicate IsIntTextChar(c: char) {
    Text.IsWhiteSpace(c) || Int32Text.IsSignOrDigit(c) || c == '.'
  }

  /** The characters of `t` that a reading of `t` itself or of its part before a zero fraction allows. */
  lemma SignedOrZeroFractionChars(t: string)
    requires Int32Text.SignedValue(t).Some? || (DecimalZerosStripped(t).Some? && Int32Text.SignedValue(DecimalZerosStripped(t).value).Some?)
    ensures forall k :: 0 <= k < |t| ==> IsIntTextChar(t[k])
  {
    if Int32Text.SignedValue(t).None? {
      var u := DecimalZerosStripped(t).value;
      forall k | 0 <= k < |t| ensures IsIntTextChar(t[k]) {
        if k < |u| {
          assert t[k] == u[k];
        }
      }
    }
  }

  /** White space around characters `IntText` allows leaves only allowed characters. */
  lemma TrimmedChars(s: string, t: string, lo: int)
    requires Text.TrimmedAt(s, t, lo)
    requires forall k :: 0 <= k < |t| ==> IsIntTextChar(t[k])
    ensures forall i :: 0 <= i < |s| ==> IsIntTextChar(s[i])
  {
    forall i | 0 <= i < |s| ensures IsIntTextChar(s[i]) {
      if lo <= i < lo + |t| {
        assert s[i] == t[i - lo];
      }
    }
  }

  /** Every character of a string `IntText` reads is white space, a sign, a digit or '.'. */
  lemma IntTextChars(s: string)
    ensures IntText(s).Some? ==> forall i :: 0 <= i < |s| ==> IsIntTextChar(s[i])
  {
    if IntText(s).Some? {
      var t := Text.Trim(s);
      assert Int32Text.SignedValue(t).Some?
             || (DecimalZerosStripped(t).Some? && Int32Text.SignedValue(DecimalZerosStripped(t).value).Some?);
      SignedOrZeroFractionChars(t);
      TrimmedChars(s, t, Text.LeadingWhite(s));
    }
  }

  /** A character other than white space, a sign, a digit or '.' makes a string unreadable as an integer. */
  lemma IntTextRefuses(s: string, i: int)
    requires 0 <= i < |s| && !IsIntTextChar(s[i])
    ensures IntText(s).None?
  {
    IntTextChars(s);
  }

  /** The value an `int` field takes from `v`, if any. */
  function LaxInt(v: Value): (n: Option<int>)
    ensures v.JInt? ==> n == Some(v.num)
    ensures v.JBool? ==> n == Some(if v.truth then 1 else 0)
    ensures v.JString? ==> n == IntText(v.str)
    ensures v.JNull? || v.JOther? ==> n.None?
  {
    match v
    case JInt(num) => Some(num)
    case JBool(truth) => Some(if truth then 1 else 0)
    case JString(str) => IntText(str)
    case _ => None
  }
}

/** The `RunLog` request model of the DB app: the stage is a code of at most 4 characters. */
module DbAppSchema {
  import opened Wrappers
  import opened Json

  const MaxIdLength: nat := 64
  const MaxStageLength: nat := 4

  datatype RunLog = RunLog(id: string, stage: string, tokens: int, clearTime: int)

  /** The field constraints of the model. */
  predicate Valid(log: RunLog) {
    |log.id| <= MaxIdLength && |log.stage| <= MaxStageLength && log.tokens >= 0 && log.clearTime >= 0
  }

  /** `obj` has all four fields, and they read as the fields of `log`. */
  predicate Carries(obj: Object, log: RunLog) {
    && "id" in obj && obj["id"] == JString(log.id)
    && "stage" in obj && obj["stage"] == JString(log.stage)
    && "tokens" in obj && LaxInt(obj["tokens"]) == Some(log.tokens)
    && "clear_time" in obj && LaxInt(obj["clear_time"]) == Some(log.clearTime)
  }

  /** The run log as a JSON object. */
  function Dump(log: RunLog): Object {
    map["id" := JString(log.id), "stage" := JString(log.stage),
        "tokens" := JInt(log.tokens), "clear_time" := JInt(log.clearTime)]
  }

  /**
    Validating a body: all four fields present and readable as their
    types, within their bounds; other keys are ignored. What it accepts is
    valid and is what the body says.
   */
  function Validate(obj: Object): (r: Option<RunLog>)
    ensures r.Some? ==> Valid(r.value) && Carries(obj, r.value)
    ensures !("id" in obj && "stage" in obj && "tokens" in obj && "clear_time" in obj) ==> r.None?
  {
    if "id" in obj && "stage" in obj && "tokens" in obj && "clear_time" in obj then
      match (obj["id"], obj["stage"], LaxInt(obj["tokens"]), LaxInt(obj["clear_time"]))
      case (JString(id), JString(stage), Some(tokens), Some(clearTime)) =>
        var log := RunLog(id, stage, tokens, clearTime);
        if Valid(log) then Some(log) else None
      case _ => None
    else None
  }

  /** Conversely, any body carrying a valid run log's fields is accepted as that run log. */
  lemma ValidateComplete(log: RunLog, obj: Object)
    requires Valid(log) && Carries(obj, log)
    ensures Validate(obj) == Some(log)
  {
  }

  /** Round trip: a valid run log survives being dumped and validated. */
  lemma DumpValidate(log: RunLog)
    requires Valid(log)
    ensures Validate(Dump(log)) == Some(log)
  {
    ValidateComplete(log, Dump(log));
  }
}

/** The `RunLog` request model of the app (server/app): the stage is a non-negative integer. */
module AppSchema {
  import opened Wrappers
  import opened Json

  const MaxIdLength: nat := 64

  datatype RunLog = RunLog(id: string, stage: int, tokens: int, clearTime: int)

  predicate Valid(log: RunLog) {
    |log.id| <= MaxIdLength && log.stage >= 0 && log.tokens >= 0 && log.clearTime >= 0
  }

  predicate Carries(obj: Object, log: RunLog) {
    && "id" in obj && obj["id"] == JString(log.id)
    && "stage" in obj && LaxInt(obj["stage"]) == Some(log.stage)
    && "tokens" in obj && LaxInt(obj["tokens"]) == Some(log.tokens)
    && "clear_time" in obj && LaxInt(obj["clear_time"]) == Some(log.clearTime)
  }

  function Dump(log: RunLog): Object {
    map["id" := JString(log.id), "stage" := JInt(log.stage),
        "tokens" := JInt(log.tokens), "clear_time" := JInt(log.clearTime)]
  }

  function Validate(obj: Object): (r: Option<RunLog>)
    ensures r.Some? ==> Valid(r.value) && Carries(obj, r.value)
    ensures !("id" in obj && "stage" in obj && "tokens" in obj && "clear_time" in obj) ==> r.None?
  {
    if "id" in obj && "stage" in obj && "tokens" in obj && "clear_time" in obj then
      match (obj["id"], LaxInt(obj["stage"]), LaxInt(obj["tokens"]), LaxInt(obj["clear_time"]))
      case (JString(id), Some(stage), Some(tokens), Some(clearTime)) =>
        var log := RunLog(id, stage, tokens, clearTime);
        if Valid(log) then Some(log) else None
      case _ => None
    else None
  }

  lemma ValidateComplete(log: RunLog, obj: Object)
    requires Valid(log) && Carries(obj, log)
    ensures Validate(obj) == Some(log)
  {
  }

  lemma DumpValidate(log: RunLog)
    requires Valid(log)
    ensures Validate(Dump(log)) == Some(log)
  {
    ValidateComplete(log, Dump(log));
  }
}

/**
  The two `RunLog` models disagree on the type of `stage`. A stage sent as
  a JSON number fits only the app model (server/app). A stage sent as a string fits the
  DB app, and the app model (server/app) as well exactly when the string reads as a
  non-negative integer: "12" fits both, a stage code such as "A1" only the
  DB app.
 */
module SchemaConflict {
  import opened Wrappers
  import Json
  import Text
  import Int32Text
  import DbAppSchema
  import AppSchema

  /** A stage text the app model (server/app) reads as a stage number. */
  predicate StageNumberText(s: string) {
    Json.IntText(s).Some? && Json.IntText(s).value >= 0
  }

  /** Which bodies the DB app accepts are accepted by the app model (server/app) too, and as what. */
  lemma FitsBothExactly(obj: Json.Object)
    requires DbAppSchema.Validate(obj).Some?
    ensures var log := DbAppSchema.Validate(obj).value;
            && (AppSchema.Validate(obj).Some? <==> StageNumberText(log.stage))
            && (AppSchema.Validate(obj).Some? ==>
                  AppSchema.Validate(obj) == Some(AppSchema.RunLog(log.id, Json.IntText(log.stage).value, log.tokens, log.clearTime)))
  {
    var log := DbAppSchema.Validate(obj).value;
    assert Json.LaxInt(obj["stage"]) == Json.IntText(log.stage);
    if StageNumberText(log.stage) {
      AppSchema.ValidateComplete(AppSchema.RunLog(log.id, Json.IntText(log.stage).value, log.tokens, log.clearTime), obj);
    }
  }

  /** A stage sent as a JSON number fits the app model (server/app) and never the DB app. */
  lemma NumberStageOnlyFitsApp(log: AppSchema.RunLog)
    requires AppSchema.Valid(log)
    ensures AppSchema.Validate(AppSchema.Dump(log)) == Some(log)
    ensures DbAppSchema.Validate(AppSchema.Dump(log)).None?
  {
    AppSchema.DumpValidate(log);
    var obj := AppSchema.Dump(log);
    assert !obj["stage"].JString?;
  }

  /** A stage code that does not read as a non-negative integer fits only the DB app. */
  lemma StageCodeOnlyFitsDbApp(log: DbAppSchema.RunLog)
    requires DbAppSchema.Valid(log) && !StageNumberText(log.stage)
    ensures DbAppSchema.Validate(DbAppSchema.Dump(log)) == Some(log)
    ensures AppSchema.Validate(DbAppSchema.Dump(log)).None?
  {
    DbAppSchema.DumpValidate(log);
    FitsBothExactly(DbAppSchema.Dump(log));
  }

  /** A stage code of digits, such as "12", fits both apps; the app model (server/app) reads it as a number. */
  lemma DigitStageFitsBoth(log: DbAppSchema.RunLog)
    requires DbAppSchema.Valid(log) && log.stage != [] && Int32Text.AllDigits(log.stage)
    ensures DbAppSchema.Validate(DbAppSchema.Dump(log)) == Some(log)
    ensures AppSchema.Validate(DbAppSchema.Dump(log))
            == Some(AppSchema.RunLog(log.id, Int32Text.DigitsValue(log.stage), log.tokens, log.clearTime))
  {
    DbAppSchema.DumpValidate(log);
    Json.IntTextDigits(log.stage);
    FitsBothExactly(DbAppSchema.Dump(log));
  }

  /** A stage code holding a character other than white space, a sign, a digit or '.' is no stage number. */
  lemma OtherCharIsNoStageNumber(s: string, i: int)
    requires 0 <= i < |s| && !Json.IsIntTextChar(s[i])
    ensures !StageNumberText(s)
  {
    Json.IntTextRefuses(s, i);
  }

  /** The stage code "A1" is no stage number. */
  lemma LetterCodeIsNoStageNumber()
    ensures !StageNumberText("A1")
  {
    OtherCharIsNoStageNumber("A1", 0);
  }
}

=== FILE: text.dfy ===
/**
  The ordinal string operations of the .NET runtime that the Unity clients
  use: `String.Trim()`, `String.Contains(string)`, `String.Replace(string,
  string)` and `String.Join(string, IEnumerable<string>)`.
 */
module Text {

  /** A character `char.IsWhiteSpace` accepts; `String.Trim()` removes these. */
  predicate IsWhiteSpace(c: char) {
    || c == ' '
    || ('\t' <= c <= '\r')
    || c == '\U{85}' || c == '\U{A0}' || c == '\U{1680}'
    || ('\U{2000}' <= c <= '\U{200A}')
    || c == '\U{2028}' || c == '\U{2029}' || c == '\U{202F}' || c == '\U{205F}'
    || c == '\U{3000}'
  }

  predicate AllWhiteSpace(s: string) {
    forall i :: 0 <= i < |s| ==> IsWhiteSpace(s[i])
  }

  /** How many white-space characters `s` starts with. */
  function LeadingWhite(s: string): (n: nat)
    ensures n <= |s|
    ensures forall k :: 0 <= k < n ==> IsWhiteSpace(s[k])
    ensures n < |s| ==> !IsWhiteSpace(s[n])
  {
    if s == [] || !IsWhiteSpace(s[0]) then 0 else 1 + LeadingWhite(s[1..])
  }

  /** Where `s[lo..j]` ends once its trailing white space is dropped. */
  function ContentEnd(s: string, lo: nat, j: nat): (e: nat)
    requires lo <= j <= |s|
    ensures lo <= e <= j
    ensures forall k :: e <= k < j ==> IsWhiteSpace(s[k])
    ensures e > lo ==> !IsWhiteSpace(s[e - 1])
    decreases j
  {
    if j == lo || !IsWhiteSpace(s[j - 1]) then j else ContentEnd(s, lo, j - 1)
  }

  /** `r` is the infix of `s` at `i` with only white space around it. */
  predicate TrimmedAt(s: string, r: string, i: int) {
    && 0 <= i && i + |r| <= |s| && r == s[i..i + |r|]
    && (forall k :: 0 <= k < i ==> IsWhiteSpace(s[k]))
    && (forall k :: i + |r| <= k < |s| ==> IsWhiteSpace(s[k]))
  }

  /**
    `String.Trim()`: the infix of `s` left after removing white space at both
    ends. It is empty exactly when `s` is all white space, which is what
    `string.IsNullOrEmpty(s.Trim())` tests.
   */
  function Trim(s: string): (r: string)
    ensures TrimmedAt(s, r, LeadingWhite(s))
    ensures r == [] <==> AllWhiteSpace(s)
    ensures r != [] ==> !IsWhiteSpace(r[0]) && !IsWhiteSpace(r[|r| - 1])
  {
    var i := LeadingWhite(s);
    var e := ContentEnd(s, i, |s|);
    if e == i then
      assert AllWhiteSpace(s);
      []
    else
      s[i..e]
  }

  /** `LeadingWhite` is the only count with its two properties. */
  lemma {:induction false} LeadingWhiteIs(s: string, n: nat)
    requires n <= |s| && (forall k :: 0 <= k < n ==> IsWhiteSpace(s[k])) && (n < |s| ==> !IsWhiteSpace(s[n]))
    ensures LeadingWhite(s) == n
    decreases n
  {
    if n > 0 {
      LeadingWhiteIs(s[1..], n - 1);
    }
  }

  /** `ContentEnd` is the only end with its two properties. */
  lemma {:induction false} ContentEndIs(s: string, lo: nat, j: nat, e: nat)
    requires lo <= e <= j <= |s|
    requires (forall k :: e <= k < j ==> IsWhiteSpace(s[k])) && (e > lo ==> !IsWhiteSpace(s[e - 1]))
    ensures ContentEnd(s, lo, j) == e
    decreases j
  {
    if j > e {
      ContentEndIs(s, lo, j - 1, e);
    }
  }

  /** Trimming a text padded with white space gives the text back. */
  lemma TrimPadded(w1: string, t: string, w2: string)
    requires AllWhiteSpace(w1) && AllWhiteSpace(w2)
    requires t == [] || (!IsWhiteSpace(t[0]) && !IsWhiteSpace(t[|t| - 1]))
    ensures Trim(w1 + t + w2) == t
  {
    var s := w1 + t + w2;
    var i := |w1|;
    if t == [] {
      assert AllWhiteSpace(s) by {
        forall k | 0 <= k < |s| ensures IsWhiteSpace(s[k]) {
          if k < i { assert s[k] == w1[k]; } else { assert s[k] == w2[k - i]; }
        }
      }
    } else {
      forall k | 0 <= k < i ensures IsWhiteSpace(s[k]) {
        assert s[k] == w1[k];
      }
      assert s[i] == t[0];
      LeadingWhiteIs(s, i);
      forall k | i + |t| <= k < |s| ensures IsWhiteSpace(s[k]) {
        assert s[k] == w2[k - i - |t|];
      }
      assert s[i + |t| - 1] == t[|t| - 1];
      ContentEndIs(s, i, |s|, i + |t|);
      assert s[i..i + |t|] == t;
    }
  }

  /** Trimming twice trims nothing more. */
  lemma {:induction false} TrimIdempotent(s: string)
    ensures Trim(Trim(s)) == Trim(s)
  {
    var r := Trim(s);
    TrimPadded([], r, []);
    assert [] + r + [] == r;
  }

  /** `p` occurs in `s` starting at index `i`. */
  predicate OccursAt(s: string, p: string, i: int) {
    0 <= i && i + |p| <= |s| && s[i..i + |p|] == p
  }

  /** Ordinal `String.Contains(p)`. */
  predicate Contains(s: string, p: string) {
    exists i :: 0 <= i <= |s| && OccursAt(s, p, i)
  }

  /** An occurrence stays an occurrence when text is added on either side. */
  lemma ContainsInConcat(a: string, p: string, b: string)
    ensures Contains(a + p + b, p)
  {
    var s := a + p + b;
    assert s[|a|..|a| + |p|] == p;
    assert OccursAt(s, p, |a|);
  }

  lemma ContainsRight(a: string, b: string, p: string)
    requires Contains(b, p)
    ensures Contains(a + b, p)
  {
    var i :| 0 <= i <= |b| && OccursAt(b, p, i);
    assert (a + b)[|a| + i..|a| + i + |p|] == b[i..i + |p|];
    assert OccursAt(a + b, p, |a| + i);
  }

  /** An occurrence in the tail is an occurrence in the whole text. */
  lemma ContainsTail(s: string, p: string)
    requires s != []
    ensures Contains(s[1..], p) ==> Contains(s, p)
  {
    if Contains(s[1..], p) {
      var i :| 0 <= i <= |s[1..]| && OccursAt(s[1..], p, i);
      assert s[i + 1..i + 1 + |p|] == s[1..][i..i + |p|];
      assert OccursAt(s, p, i + 1);
    }
  }

  /**
    Ordinal `String.Replace(pat, rep)`: scans left to right and replaces
    every non-overlapping occurrence of `pat`. `pat` must not be empty (the
    runtime throws otherwise).
   */
  function Replace(s: string, pat: string, rep: string): (r: string)
    requires pat != []
    decreases |s|
  {
    if |s| < |pat| then s
    else if s[..|pat|] == pat then rep + Replace(s[|pat|..], pat, rep)
    else [s[0]] + Replace(s[1..], pat, rep)
  }

  /** A text without the pattern is left as it is. */
  lemma {:induction false} ReplaceAbsent(s: string, pat: string, rep: string)
    requires pat != []
    ensures !Contains(s, pat) ==> Replace(s, pat, rep) == s
    decreases |s|
  {
    if |s| >= |pat| && !Contains(s, pat) {
      assert s[..|pat|] != pat by {
        assert s[0..|pat|] == s[..|pat|];
        assert !OccursAt(s, pat, 0);
      }
      ContainsTail(s, pat);
      ReplaceAbsent(s[1..], pat, rep);
      assert [s[0]] + s[1..] == s;
    }
  }

  /** `String.Join(sep, xs)`: the items in order with `sep` between neighbours. */
  function Join(sep: string, xs: seq<string>): (r: string)
    ensures xs == [] ==> r == []
    ensures |xs| == 1 ==> r == xs[0]
  {
    if xs == [] then ""
    else if |xs| == 1 then xs[0]
    else xs[0] + sep + Join(sep, xs[1..])
  }

  /** Every item can be found in the joined text. */
  lemma {:induction false} JoinContains(sep: string, xs: seq<string>)
    ensures forall i :: 0 <= i < |xs| ==> Contains(Join(sep, xs), xs[i])
  {
    if |xs| == 1 {
      ContainsInConcat([], xs[0], []);
      assert [] + xs[0] + [] == xs[0];
    } else if |xs| > 1 {
      var rest := Join(sep, xs[1..]);
      var r := Join(sep, xs);
      JoinContains(sep, xs[1..]);
      forall i | 0 <= i < |xs| ensures Contains(r, xs[i]) {
        if i == 0 {
          ContainsInConcat([], xs[0], sep + rest);
          assert [] + xs[0] + (sep + rest) == r;
        } else {
          assert xs[i] == xs[1..][i - 1];
          ContainsRight(xs[0] + sep, rest, xs[i]);
        }
      }
    }
  }

  /** Joining two non-empty lists is joining each and putting `sep` between the two. */
  lemma {:induction false} JoinAppend(sep: string, a: seq<string>, b: seq<string>)
    requires a != [] && b != []
    ensures Join(sep, a + b) == Join(sep, a) + sep + Join(sep, b)
    decreases |a|
  {
    var ab := a + b;
    assert ab[0] == a[0];
    if |a| == 1 {
      assert ab[1..] == b;
    } else {
      assert ab[1..] == a[1..] + b;
      JoinAppend(sep, a[1..], b);
    }
  }
}

=== FILE: transport.dfy ===
/** The ready state of a websocket-sharp `WebSocket`, as both Unity clients read it. */
module Transport {

  datatype ReadyState = Connecting | Open | Closing | Closed
}

=== FILE: wrappers.dfy ===
/**
  Small failure-carrying datatypes shared by the client modules.
  - Option<T> stands for a reference that may be null (a missing UI field,
    a null string, a null socket).
  - Decoded<T> is what a JSON decoder hands back to the client code: it can
    throw, return null, or return an object.
 */
module Wrappers {

  datatype Option<+T> = None | Some(value: T) {

    /** The value, or `default` when it is None. */
    function GetOr(default: T): T {
      match this
      case Some(v) => v
      case None => default
    }
  }

  /** The outcome of `JsonUtility.FromJson<T>(text)` as seen by the caller. */
  datatype Decoded<+T> = DecodeThrew | DecodedNull | Decoded(value: T)
}
